=== FILE: README.md ===
# pysloc in Dafny

A model of the counting core of `pysloc.py`. The script counts source lines of
Python code in a directory tree. The model covers five pieces:

- **`is_code_line`.** A line is code when, after stripping, it is non-empty,
  does not start with `#`, and keeps something before its first `#`.
- **`should_ignore`.** A hidden name (one starting with `.`) is excluded unless
  hidden entries are wanted. Otherwise every ignore pattern is expanded into
  candidates: the pattern itself, plus its form relative to the root (for an
  absolute pattern) or its absolute form under the root (for a relative one).
  Each candidate is glob-matched against the path relative to the root, the
  absolute path, and the basename.
- **`iter_python_files`.** A top-down walk from the absolute root. Ignored
  directories are pruned before they are entered. A directory's files come
  before its subdirectories. A file is yielded when it is not ignored and its
  name ends in `.py`.
- **`count_file_loc`.** The number of code lines of one file, or 0 when the
  file cannot be opened.
- **`count_loc`.** The fold of the per-file counts into a total, and into a
  per-file mapping when one is asked for.

The project is made of these modules:

| module | file | contents |
|---|---|---|
| `Wrappers` | `wrappers.dfy` | `Option` |
| `Strings` | `strings.dfy` | Python's whitespace set, `strip`, `split(c, 1)[0]`, `endswith` |
| `Classifier` | `classifier.dfy` | `is_code_line` and counting lines |
| `Glob` | `glob.dfy` | `fnmatch.fnmatch` on POSIX: `fnmatch.translate` as tokens, and matching |
| `Paths` | `paths.dfy` | `str.split('/')`, `'/'.join`, and from `posixpath`: `join`, `isabs`, `basename`, `normpath`/`abspath` with the working directory as a parameter, `relpath` |
| `Ignore` | `ignore.dfy` | `should_ignore` |
| `Walker` | `walker.dfy` | the directory tree, `os.walk` with pruning, `iter_python_files` |
| `Counter` | `counter.dfy` | `count_file_loc`, `count_loc` |
| `Scenario` | `scenario.dfy` | a two-file tree, counted without and with the pattern `sub` |

How the filesystem is represented:

- The filesystem is an immutable tree of `Node`s. A file holds the lines that
  reading it delivers, or `None` when it cannot be opened.
- A path inside the model is its sequence of component names below `/`. The
  walk yields the text of each path.
- For valid names, that text equals what `os.path.join(dirpath, name)` gives
  (`Paths.JoinRender`).
- Many lemmas assume `WellFormed`: in every directory the names are distinct
  and valid. Every real directory tree has this property.
- The process working directory that `os.path.abspath` consults is the
  parameter `cwd`.

Two behaviours of the code that are easy to misread:

- **Read failures.** A read failure part-way through a file keeps the lines
  counted so far, because the `except OSError` of `count_file_loc` sits
  outside its line loop (pysloc.py:171-177). In the model, a file holds the
  lines delivered before the failure, and those are counted.
- **`relpath` failures.** On POSIX, `os.path.relpath` raises `ValueError`
  only for an empty path, and `Paths.RelPath` fails exactly there. Neither
  fallback of `should_ignore` can therefore happen:
  - the path handed to `relpath` at pysloc.py:87-91 is already absolute, so
    it is not empty;
  - the pattern handed to `relpath` at pysloc.py:106-109 is absolute, so it is
    not empty either.

Character classes in ignore patterns follow `fnmatch.translate` as CPython
3.12 writes it. That version removes every range whose ends are out of order
(such as `b-a`) before it looks at the first character of the class:

- A class left empty matches nothing.
- A class left as a lone `!` matches any character, so `[b-a!]` matches
  everything.
- A class that then starts with `!` is negated, so `[b-a!x]` matches every
  character but `x`.

Releases without that step hand `[b-a]` to `re`, which rejects it.

## Model

| member | source | states |
|---|---|---|
| Strings.Strip | pysloc.py:70 | `strip()` returns a contiguous slice of the line with only whitespace before and after it; the slice is empty exactly when the line is all whitespace, and otherwise begins and ends with non-whitespace |
| Strings.BeforeFirst | pysloc.py:76 | `split('#', 1)[0]` is the prefix before the first `#`: it holds no `#`, and the character after it (if any) is `#` |
| Classifier.IsCodeLine | pysloc.py:61-77 | a line is code exactly when some character that is not whitespace comes before its first `#`; the lemmas below spell out blank lines, comment lines and trailing comments |
| Classifier.CodePartOfRawLine | pysloc.py:70-77 | a line is code exactly when the part of the raw line before its first `#`, stripped, is non-empty; stripping before cutting at the `#`, as the code does, changes nothing |
| Classifier.BlankLineIsNotCode | pysloc.py:70-72 | an all-whitespace line is not code |
| Classifier.CommentLineIsNotCode | pysloc.py:73-74 | a line whose first non-whitespace character is `#` is not code |
| Classifier.CommentTailIrrelevant | pysloc.py:76-77 | whatever follows the first `#` does not change the verdict |
| Classifier.LeadingCodeCharIsCode | pysloc.py:61-77 | a line starting with a character that is neither whitespace nor `#` is code |
| Classifier.QuoteBeforeMarkerIsCode | pysloc.py:76-77 | a line with a quote before its first `#` is code: a string literal opened on the same line keeps a `#` inside it from changing the verdict |
| Classifier.CommentLineAddsNothing | pysloc.py:173-175 | lines are classified one at a time, so a line whose first non-blank character is `#` adds nothing to the count wherever it stands, even inside a triple-quoted string |
| Classifier.CodeWithTrailingComment | pysloc.py:70-77 | an example: `x = 1  # note` is code |
| Classifier.IndentedCommentIsNotCode | pysloc.py:70-74 | an example: `   # just a comment` is not code |
| Classifier.MarkerInsideMultilineString | pysloc.py:70-74 | an example: the indented line `    # inside a docstring` is not code |
| Classifier.CountWhere | pysloc.py:173-175 | the loop's count is at most the number of lines, 0 exactly when no line is kept, and the number of lines exactly when all are |
| Classifier.CountWhereCard | pysloc.py:173-175 | the loop's count is the number of positions holding a kept line |
| Classifier.CountCodeLinesMeaning | pysloc.py:170-175 | a file's count is the number of its lines with something other than whitespace before the first `#` |
| Classifier.CountCodeLinesAppend | pysloc.py:173-175 | the count of a concatenation of lines is the sum of the counts of the parts |
| Glob.Parse | pysloc.py:115-117 | every token of the translated pattern stands for at least one pattern character, and a pattern without `*`, `?` or `[` becomes one literal per character; StarPrefix, QuestionPrefix, UnclosedBracket and ParseClosedClass give the meaning of `*`, `?`, an unclosed `[` and a closed class |
| Glob.QuestionPrefix | pysloc.py:114-118 | `?p` matches exactly the strings with at least one character whose rest matches `p` |
| Glob.UnclosedBracket | pysloc.py:114-118 | a `[` that no `]` closes stands for a literal `[`: `[p` matches exactly the strings starting with `[` whose rest matches `p` |
| Glob.MatchTokens | pysloc.py:115-117 | without `*`, a match consumes exactly one character per token; MatchConcat, StarMatchesAll and StarPrefix give the rest of its meaning |
| Glob.Fnmatch | pysloc.py:115-117 | a pattern without `*`, `?` or `[` matches exactly the string it spells |
| Glob.MatchLits | pysloc.py:115-117 | literal tokens match exactly the string they spell |
| Glob.FindFrom | pysloc.py:114-118 | the search used to find the `]` that closes a class returns the first occurrence at or after the start, or reports that none exists |
| Glob.MatchConcat | pysloc.py:114-118 | a concatenation of pattern pieces matches exactly the strings that split into a match of each piece |
| Glob.StarMatchesAll | pysloc.py:114-118 | `*` matches every string, separators included |
| Glob.StarPrefix | pysloc.py:114-118 | `*p` matches exactly the strings that have a suffix matching `p` |
| Glob.ParseClosedClass | pysloc.py:114-118 | a closed class `[body]` is read as one token, and the rest of the pattern is read after it; a `]` first in the body, or right after its `!`, stands for itself |
| Glob.RangeClass | pysloc.py:114-118 | `[lo-hi]` accepts exactly the characters from `lo` to `hi`, and none when `hi` comes before `lo` |
| Glob.LeadingBracketIsMember | pysloc.py:114-118 | `[]a]` is one class accepting exactly `]` and `a` |
| Glob.ClassToken | pysloc.py:114-118 | a closed class body becomes one class token, and no range that reaches matching has its ends out of order |
| Glob.DropEmptyRanges | pysloc.py:114-118 | taking out the out-of-order ranges leaves no such range and never adds items |
| Glob.DropEmptyRangesKeeps | pysloc.py:114-118 | taking out the out-of-order ranges keeps every character the class holds |
| Glob.NegatedTokenAccepts | pysloc.py:114-118 | the token of `[!body]` accepts exactly the characters no item of `body` holds |
| Glob.PlainTokenAccepts | pysloc.py:114-118 | without a leading `!`, before or after the empty ranges are removed, the token of `[body]` accepts exactly the characters some item holds |
| Glob.NegatedClassMatch | pysloc.py:114-118 | `[!body]` matches exactly the single characters that no item of `body` holds |
| Glob.PlainClassMatch | pysloc.py:114-118 | `[body]` matches exactly the single characters that some item of `body` holds, when no `!` leads before or after the empty ranges are removed |
| Glob.NegatedClass | pysloc.py:114-118 | `[!body]` accepts exactly the characters no item of `body` holds, a leading `]` included; it is the complement of `[body]` unless `body` leads with `!` once its empty ranges are gone |
| Glob.EmptyRangeThenBang | pysloc.py:114-118 | the empty range goes before the leading `!` is looked for: `[b-a!]` accepts every character and `[b-a!x]` every character but `x` |
| Paths.SplitJoin | pysloc.py:85-92 | splitting on `/` undoes joining when no part holds a separator |
| Paths.JoinSplit | pysloc.py:85-92 | joining undoes splitting, for every string |
| Paths.AbsPathOf | pysloc.py:85-86 | `abspath` yields only valid components (no empty, `.` or `..` name); RenderRoundTrip, NormalizeConcat and TrailingSepIgnored give the rest of its meaning |
| Paths.JoinPath | pysloc.py:152 | `join(a, b)` is `b` when `b` is absolute; otherwise it is `a + b` when `a` is empty or ends with a separator, and `a`, a separator, `b` when it does not; JoinRender and JoinBelow give the component view |
| Paths.NormalizeConcat | pysloc.py:85-86 | normalisation is a left-to-right fold over the components |
| Paths.RenderRoundTrip | pysloc.py:85-86 | `abspath` of the text of a normalised absolute path gives that path back |
| Paths.RenderInjective | pysloc.py:85-86 | distinct normalised paths have distinct texts |
| Paths.TrailingSepIgnored | pysloc.py:85-86 | a trailing `/` does not change what `abspath` returns |
| Paths.Basename | pysloc.py:92 | `basename` is the suffix after the last `/`: it holds no `/`, and the character before it (if any) is `/` |
| Paths.BasenameRender | pysloc.py:92 | the basename of a path's text is its last component |
| Paths.RelPath | pysloc.py:87-91 | on POSIX, `relpath` fails exactly for an empty path |
| Paths.RelPathBelow | pysloc.py:88 | the path `root/q`, taken relative to `root`, is `q`, or `.` when `q` is empty |
| Paths.JoinBelow | pysloc.py:111 | `abspath(join(root, q))` for a relative `q` made of names is `root/q` |
| Paths.JoinRender | pysloc.py:144-151 | joining a directory's text and an entry name gives the text of the entry's path |
| Ignore.PathForms | pysloc.py:85-92 | the relative form is the path taken relative to the root (the `relpath` fallback never happens), and the absolute form names the same path as the one given |
| Ignore.Candidates | pysloc.py:104-111 | each pattern gives one or two candidates, the pattern itself first |
| Ignore.AnyPatternHits | pysloc.py:102-121 | the pattern loop reports a hit exactly when some pattern has a candidate that matches some form |
| Ignore.ShouldIgnore | pysloc.py:80-121 | a hidden name is ignored whatever the patterns; with no patterns only hidden names are ignored; otherwise a path is ignored exactly when it is hidden or some pattern has a candidate matching its relative path, absolute path or basename |
| Ignore.AbsoluteRootSameVerdict | pysloc.py:136-153 | handing `should_ignore` the root already made absolute gives the verdict the root as given would get |
| Ignore.PatternOrderIrrelevant | pysloc.py:102-121 | the verdict depends only on which patterns are given: reordering or repeating them changes nothing |
| Ignore.RelativePatternAbsoluteForm | pysloc.py:110-111 | a relative pattern naming an entry below the root is also tried as that entry's absolute path |
| Ignore.AbsolutePatternRelativeForm | pysloc.py:105-107 | an absolute pattern naming an entry below the root is also tried as its path relative to the root |
| Ignore.RelativePatternExcludes | pysloc.py:102-121 | a literal relative pattern excludes the entry it names below the root |
| Ignore.AbsolutePatternExcludesRelativePath | pysloc.py:85-121 | with the working directory at the root, an absolute pattern excludes the entry it names even when that entry is given as a relative path |
| Ignore.TrailingSeparatorPatternExcludes | pysloc.py:104-117 | a pattern `name/` excludes the directory `name` just below the root, through its absolute candidate |
| Walker.FindChild | pysloc.py:140 | an entry lookup returns the first entry with the name, or reports that none has it |
| Walker.WalkDir | pysloc.py:140-157 | top-down: a directory's own files come before anything from its subdirectories; WalkSound, WalkComplete and WalkNoDup give exactly what it yields |
| Walker.WalkSound | pysloc.py:140-157 | every path the walk yields names a `.py` file below the directory, and neither it nor any directory on the way is ignored |
| Walker.WalkComplete | pysloc.py:140-157 | every such file is yielded |
| Walker.WalkNoDup | pysloc.py:140-157 | in a well-formed tree the walk yields each path at most once |
| Walker.WalkValid | pysloc.py:140-157 | every yielded path consists of valid names |
| Walker.LookupAppend | pysloc.py:140 | looking up a path below a directory continues inside that directory |
| Walker.PythonFilePaths | pysloc.py:136-140 | a root that is missing or is not a directory yields nothing; PythonFilePathsMeaning gives exactly what a directory root yields |
| Walker.PythonFilePathsMeaning | pysloc.py:124-157 | stated on the filesystem alone: a path is yielded exactly when the root is a directory, the path lies strictly below it and names a `.py` file, and neither the path nor any directory between the root and it is ignored |
| Walker.PrunedSubtreeNeverYielded | pysloc.py:141-149 | nothing inside an ignored directory below the root is ever yielded |
| Walker.IterPythonFilesNoDup | pysloc.py:124-157 | `iter_python_files` never yields the same path text twice |
| Walker.IterPythonFiles | pysloc.py:124-157 | one text for each walked path, in walk order: the `i`-th text is the text of the `i`-th path |
| Walker.IterPythonFilesSound | pysloc.py:151-157 | every yielded text has a basename ending in `.py` and is not ignored by `should_ignore` with the caller's root, patterns and hidden policy |
| Counter.ReadLines | pysloc.py:172 | only a path naming a file can be read |
| Counter.ReadAbsolute | pysloc.py:172 | opening the absolute text the walk yields reads the same file as opening the path it was made from |
| Counter.CountFileLoc | pysloc.py:160-180 | an unreadable path counts 0; a readable file counts at most its number of lines |
| Counter.CountFileLocMeaning | pysloc.py:160-180 | a readable file's count is the number of its lines with something other than whitespace before the first `#` |
| Counter.NonFileCountsZero | pysloc.py:171-177 | a path naming a directory, or nothing, counts 0 |
| Counter.Accumulate | pysloc.py:200-207 | with the per-file switch on, the mapping's keys are exactly the files; with it off, the mapping stays empty; every recorded value is that file's count |
| Counter.AccumulateTotal | pysloc.py:200-205 | the loop's total is the sum of the files' counts |
| Counter.MapSumRemove | pysloc.py:197-213 | the sum of a mapping's values does not depend on the order in which keys are taken |
| Counter.AccumulateMapSum | pysloc.py:197-213 | when no file repeats, the per-file values add up to the total |
| Counter.CountLoc | pysloc.py:183-213 | a mapping is returned exactly when per-file counts are asked for; the total is the sum of the counts of the walked files |
| Counter.PerFileSwitchKeepsTotal | pysloc.py:209-213 | the per-file switch changes the shape of the result, not the total |
| Counter.CountLocPerFile | pysloc.py:197-213 | the mapping's keys are exactly the walked files, each value is that file's count, and the values add up to the total |
| Counter.UnreadableFileReported | pysloc.py:171-207 | a walked file that cannot be read is in the mapping with count 0 |
| Scenario.ScenarioCountLoc | pysloc.py:183-213 | `/r/a.py` (two code lines, a blank line, a comment line) and `/r/sub/b.py` (one code line) give the mapping `{/r/a.py: 2, /r/sub/b.py: 1}` and the total 3 |
| Scenario.ScenarioPrunedCountLoc | pysloc.py:183-213 | with the pattern `sub`, the directory `sub` is pruned, giving `{/r/a.py: 2}` and the total 2 |

## Left out

- Logging, the log file handler, the command line, the summary printing and the entry point are not modelled. They do not change any result.
- The exception classes are not modelled, because the core never raises them.
- Real I/O is not modelled. Files are tree nodes holding their decoded lines. Decoding with `errors='ignore'` is not modelled, and neither are line endings: the trailing newline is whitespace, so it never changes a verdict.
- Failures are simplified. Permission errors and `os.walk`'s swallowed listing errors are left out. A file that cannot be opened holds `None`; a directory never fails to list.
- Symbolic links, and path resolution through them, are not modelled.
- Windows paths, drive letters and case folding by `normcase` are not modelled. The model is POSIX only.
- `os.getcwd()` is the parameter `cwd`, not process state.
- Glob.NegatedClass: `[!body]` is not promised to be the complement of `[body]` when `body` leads with `!` once its out-of-order ranges are removed. CPython 3.12's translate reads both classes as negated then, as EmptyRangeThenBang shows.
- Paths.AbsPathOf: on POSIX, `normpath` leaves exactly two leading separators in place. The model collapses them to one, so it is faithful only for roots and working directories that do not start with exactly two separators (such as `//x`).
- Counter.ReadLines: the file is found by resolving the path lexically. A real `open` of `f.py/../g.py` or `f.py/` fails, because `f.py` is not a directory. The walk never produces such paths.
- Walker.PythonFilePathsMeaning: this and the other whole-walk lemmas assume a well-formed tree, with distinct, valid names in every directory.
- The walk's order within a directory is the order of the node's children. `os.walk` returns entries in the order the operating system lists them, which is unspecified.
- `ignore_patterns=None` is modelled as the empty sequence, which is what the code turns it into.

=== FILE: classifier.dfy ===
/** The line classifier of the SLOC counter: which physical lines count as
    source code. */
module Classifier {
  import opened Strings

  /** The character that starts a comment. */
  const CommentMarker: char := '#'

  /** Position `i` of `line` holds code: a character that is neither
      whitespace nor the comment marker, with no comment marker before it. */
  predicate CodeAt(line: string, i: int) {
    && 0 <= i < |line|
    && !IsSpace(line[i])
    && line[i] != CommentMarker
    && CommentMarker !in line[..i]
  }

  /** The reference meaning of a code line: something other than whitespace
      comes before the first comment marker. */
  predicate HasCodeBeforeComment(line: string) {
    exists i :: 0 <= i < |line| && CodeAt(line, i)
  }

  lemma DropLeadingSpace(s: string)
    requires |s| > 0 && IsSpace(s[0])
    ensures HasCodeBeforeComment(s) <==> HasCodeBeforeComment(s[1..])
  {
    if HasCodeBeforeComment(s) {
      var i :| 0 <= i < |s| && CodeAt(s, i);
      assert i > 0;
      assert s[1..][..i - 1] == s[1..i];
      assert CommentMarker !in s[1..i] by {
        assert forall j :: 1 <= j < i ==> s[j] == s[..i][j];
      }
      assert CodeAt(s[1..], i - 1);
    }
    if HasCodeBeforeComment(s[1..]) {
      var i :| 0 <= i < |s| - 1 && CodeAt(s[1..], i);
      assert s[..i + 1] == [s[0]] + s[1..][..i];
      assert CodeAt(s, i + 1);
    }
  }

  lemma {:induction false} HasCodeLStrip(s: string)
    ensures HasCodeBeforeComment(LStrip(s)) <==> HasCodeBeforeComment(s)
    decreases |s|
  {
    if |s| > 0 && IsSpace(s[0]) {
      DropLeadingSpace(s);
      HasCodeLStrip(s[1..]);
    }
  }

  lemma DropTrailingSpace(s: string)
    requires |s| > 0 && IsSpace(s[|s| - 1])
    ensures HasCodeBeforeComment(s) <==> HasCodeBeforeComment(s[..|s| - 1])
  {
    var t := s[..|s| - 1];
    if HasCodeBeforeComment(s) {
      var i :| 0 <= i < |s| && CodeAt(s, i);
      assert i < |s| - 1;
      assert t[..i] == s[..i];
      assert CodeAt(t, i);
    }
    if HasCodeBeforeComment(t) {
      var i :| 0 <= i < |t| && CodeAt(t, i);
      assert t[..i] == s[..i];
      assert CodeAt(s, i);
    }
  }

  lemma {:induction false} HasCodeRStrip(s: string)
    ensures HasCodeBeforeComment(RStrip(s)) <==> HasCodeBeforeComment(s)
    decreases |s|
  {
    if |s| > 0 && IsSpace(s[|s| - 1]) {
      DropTrailingSpace(s);
      HasCodeRStrip(s[..|s| - 1]);
    }
  }

  /** Stripping a line does not change whether it holds code. */
  lemma HasCodeStrip(s: string)
    ensures HasCodeBeforeComment(Strip(s)) <==> HasCodeBeforeComment(s)
  {
    HasCodeLStrip(s);
    HasCodeRStrip(LStrip(s));
  }

  /** `is_code_line`: strip the line; a blank line or one whose stripped form
      starts with the comment marker is not code; otherwise the line is code
      when the part before the first comment marker, stripped, is non-empty.
      String literals are not recognised: a marker inside quotes still starts
      a comment. The three steps decide exactly whether non-whitespace comes
      before the first comment marker. */
  function IsCodeLine(line: string): (r: bool)
    ensures r <==> HasCodeBeforeComment(line)
  {
    var stripped := Strip(line);
    HasCodeStrip(line);
    if |stripped| == 0 then false
    else if stripped[0] == CommentMarker then
      MarkerFirstNoCode(stripped);
      false
    else
      CodeFirstChar(stripped);
      |Strip(BeforeFirst(stripped, CommentMarker))| > 0
  }

  /** A line that starts with the comment marker holds no code. */
  lemma MarkerFirstNoCode(t: string)
    requires |t| > 0 && t[0] == CommentMarker
    ensures !HasCodeBeforeComment(t)
  {
    forall i | 0 <= i < |t| ensures !CodeAt(t, i) {
      if i > 0 {
        assert t[..i][0] == CommentMarker;
      }
    }
  }

  /** A line that starts with code holds code, and so does its part before
      the first comment marker. */
  lemma CodeFirstChar(t: string)
    requires |t| > 0 && !IsSpace(t[0]) && t[0] != CommentMarker
    ensures HasCodeBeforeComment(t) && |Strip(BeforeFirst(t, CommentMarker))| > 0
  {
    assert CodeAt(t, 0);
    var before := BeforeFirst(t, CommentMarker);
    assert |before| > 0 && before[0] == t[0];
    assert !AllSpace(before);
  }

  /** Stripping first and then cutting at the first comment marker, as the
      source does, decides the same as cutting the raw line and stripping
      the part before the marker. */
  lemma CodePartOfRawLine(line: string)
    ensures IsCodeLine(line) <==> |Strip(BeforeFirst(line, CommentMarker))| > 0
  {
    CodeBeforeFirstMarker(line);
  }

  /** Code comes before the first marker exactly when the part before the
      marker is not all whitespace. */
  lemma CodeBeforeFirstMarker(line: string)
    ensures HasCodeBeforeComment(line) <==> !AllSpace(BeforeFirst(line, CommentMarker))
  {
    var b := BeforeFirst(line, CommentMarker);
    forall i | 0 <= i < |line| && CodeAt(line, i) ensures i < |b| && !IsSpace(b[i]) {
      assert b[i] == line[i];
    }
    forall j | 0 <= j < |b| && !IsSpace(b[j]) ensures CodeAt(line, j) {
      assert b[j] in b;
      assert line[..j] == b[..j];
    }
  }

  /** A line in which no position holds code is not a code line. */
  lemma NoCodeAtIsNotCode(line: string)
    requires forall i :: 0 <= i < |line| ==> !CodeAt(line, i)
    ensures !IsCodeLine(line)
  {
  }

  /** A blank line (empty, or whitespace only, such as a bare "\n") is not code. */
  lemma BlankLineIsNotCode(line: string)
    requires AllSpace(line)
    ensures !IsCodeLine(line)
  {
    NoCodeAtIsNotCode(line);
  }

  /** A line whose first non-whitespace character is the comment marker is a
      full-line comment and is not code. */
  lemma CommentLineIsNotCode(line: string, k: nat)
    requires k < |line| && AllSpace(line[..k]) && line[k] == CommentMarker
    ensures !IsCodeLine(line)
  {
    forall i | 0 <= i < |line| ensures !CodeAt(line, i) {
      if i < k {
        assert line[i] == line[..k][i];
      } else if i > k {
        assert line[..i][k] == CommentMarker;
      }
    }
    NoCodeAtIsNotCode(line);
  }

  /** Whatever follows the first comment marker, string quotes included, has
      no bearing on the classification. */
  lemma CommentTailIrrelevant(code: string, tail1: string, tail2: string)
    requires CommentMarker !in code
    ensures IsCodeLine(code + [CommentMarker] + tail1) == IsCodeLine(code + [CommentMarker] + tail2)
  {
    CodeBeforeMarker(code, tail1);
    CodeBeforeMarker(code, tail2);
  }

  lemma CodeBeforeMarker(code: string, tail: string)
    requires CommentMarker !in code
    ensures HasCodeBeforeComment(code + [CommentMarker] + tail) <==> HasCodeBeforeComment(code)
  {
    var l := code + [CommentMarker] + tail;
    forall i | |code| <= i < |l| ensures !CodeAt(l, i) {
      if i == |code| {
        assert l[i] == CommentMarker;
      } else {
        assert l[..i][|code|] == CommentMarker;
      }
    }
    forall i | 0 <= i < |code| ensures CodeAt(l, i) <==> CodeAt(code, i) {
      assert l[..i] == code[..i];
    }
  }

  /** The number of lines among `lines` that satisfy `keep`, counted front
      to back as the source's loop does. */
  function CountWhere(lines: seq<string>, keep: string -> bool): (n: nat)
    ensures n <= |lines|
    ensures n == 0 <==> forall i :: 0 <= i < |lines| ==> !keep(lines[i])
    ensures n == |lines| <==> forall i :: 0 <= i < |lines| ==> keep(lines[i])
  {
    if |lines| == 0 then 0
    else
      var front := lines[..|lines| - 1];
      assert forall i :: 0 <= i < |front| ==> front[i] == lines[i];
      CountWhere(front, keep) + (if keep(lines[|lines| - 1]) then 1 else 0)
  }

  /** The number of code lines among `lines`. */
  function CountCodeLines(lines: seq<string>): nat {
    CountWhere(lines, IsCodeLine)
  }

  /** The indices of the lines that satisfy `keep`. */
  function IndicesWhere(lines: seq<string>, keep: string -> bool): set<int> {
    set i | 0 <= i < |lines| && keep(lines[i])
  }

  /** The count is the number of positions holding a kept line. */
  lemma {:induction false} CountWhereCard(lines: seq<string>, keep: string -> bool)
    ensures CountWhere(lines, keep) == |IndicesWhere(lines, keep)|
    decreases |lines|
  {
    if |lines| > 0 {
      var front := lines[..|lines| - 1];
      CountWhereCard(front, keep);
      var a := IndicesWhere(front, keep);
      var b := IndicesWhere(lines, keep);
      if keep(lines[|lines| - 1]) {
        assert b == a + {|front|};
      } else {
        assert b == a;
      }
    }
  }

  /** The code-line count of a file is the number of its lines that carry
      something other than whitespace before the first comment marker. */
  lemma CountCodeLinesMeaning(lines: seq<string>)
    ensures CountCodeLines(lines) == |set i | 0 <= i < |lines| && HasCodeBeforeComment(lines[i])|
  {
    CountWhereCard(lines, IsCodeLine);
    var a := IndicesWhere(lines, IsCodeLine);
    var b := set i | 0 <= i < |lines| && HasCodeBeforeComment(lines[i]);
    forall i | i in a ensures i in b {
      assert IsCodeLine(lines[i]);
    }
    forall i | i in b ensures i in a {
      assert IsCodeLine(lines[i]);
    }
    assert a == b;
  }

  /** Counting distributes over concatenation of line sequences. */
  lemma {:induction false} CountWhereAppend(a: seq<string>, b: seq<string>, keep: string -> bool)
    ensures CountWhere(a + b, keep) == CountWhere(a, keep) + CountWhere(b, keep)
    decreases |b|
  {
    if |b| > 0 {
      var b' := b[..|b| - 1];
      assert (a + b)[..|a + b| - 1] == a + b';
      CountWhereAppend(a, b', keep);
    } else {
      assert a + b == a;
    }
  }

  /** The code-line count of a file is the sum of the counts of any split of
      it. */
  lemma CountCodeLinesAppend(a: seq<string>, b: seq<string>)
    ensures CountCodeLines(a + b) == CountCodeLines(a) + CountCodeLines(b)
  {
    CountWhereAppend(a, b, IsCodeLine);
  }

  /** A line whose first character is neither whitespace nor the comment
      marker is code, whatever follows it. */
  lemma LeadingCodeCharIsCode(line: string)
    requires |line| > 0 && !IsSpace(line[0]) && line[0] != CommentMarker
    ensures IsCodeLine(line)
  {
    assert CodeAt(line, 0);
  }

  /** An example: code followed by a trailing comment is code. */
  lemma CodeWithTrailingComment()
    ensures IsCodeLine("x = 1  # note")
  {
    LeadingCodeCharIsCode("x = 1  # note");
  }

  /** An example: an indented comment is not code. */
  lemma IndentedCommentIsNotCode()
    ensures !IsCodeLine("   # just a comment")
  {
    assert AllSpace("   # just a comment"[..3]);
    CommentLineIsNotCode("   # just a comment", 3);
  }

  /** A quote that opens a string literal on the same line, before the first
      comment marker, makes the line code: the quote is itself code, so a
      marker later inside the literal cannot change the verdict. The lemma
      says nothing about lines that continue a multi-line string; see
      MarkerInsideMultilineString. */
  lemma QuoteBeforeMarkerIsCode(line: string, q: nat)
    requires q < |line| && (line[q] == '"' || line[q] == '\'')
    requires CommentMarker !in line[..q]
    ensures IsCodeLine(line)
  {
    assert CodeAt(line, q);
  }

  /** Lines are classified one at a time, with no memory of an open
      triple-quoted string or of any other line: a line whose first non-blank
      character is the comment marker adds nothing to a file's count,
      wherever it stands, even inside a docstring that Python reads as a
      string literal. */
  lemma CommentLineAddsNothing(pre: seq<string>, line: string, post: seq<string>, k: nat)
    requires k < |line| && AllSpace(line[..k]) && line[k] == CommentMarker
    ensures CountCodeLines(pre + [line] + post) == CountCodeLines(pre) + CountCodeLines(post)
  {
    CommentLineIsNotCode(line, k);
    CountCodeLinesAppend(pre, [line]);
    CountCodeLinesAppend(pre + [line], post);
    assert [line][1..] == [];
  }

  /** An example: the indented `#` line of a docstring is not code. */
  lemma MarkerInsideMultilineString()
    ensures !IsCodeLine("    # inside a docstring\n")
  {
    var line := "    # inside a docstring\n";
    assert line[..4] == "    ";
    assert AllSpace(line[..4]);
    CommentLineIsNotCode(line, 4);
  }
}

=== FILE: counter.dfy ===
/** `count_file_loc` and `count_loc`: counting the code lines of one file,
    and folding the counts of the walked files into a per-file mapping and a
    total. */
module Counter {
  import opened Wrappers
  import opened Paths
  import opened Classifier
  import opened Walker

  // ---------------------------------------------------------------------
  // One file

  /** The lines reading `path` delivers: those of the file the path names,
      resolved against `cwd`. A missing path or a directory cannot be opened
      (None); a file whose read fails part-way holds the lines delivered
      before the failure. */
  function ReadLines(fs: Node, path: string, cwd: AbsPath): (r: Option<seq<string>>)
    ensures r.Some? ==> Lookup(fs, AbsPathOf(path, cwd).parts).Some? && Lookup(fs, AbsPathOf(path, cwd).parts).value.File?
  {
    match Lookup(fs, AbsPathOf(path, cwd).parts)
    case Some(File(_, lines)) => lines
    case _ => None
  }

  /** The walk yields absolute texts; opening one reads the same file as
      opening the path it was made from. */
  lemma ReadAbsolute(fs: Node, path: string, cwd: AbsPath)
    ensures ReadLines(fs, Render(AbsPathOf(path, cwd)), cwd) == ReadLines(fs, path, cwd)
  {
    RenderRoundTrip(AbsPathOf(path, cwd), cwd);
  }

  /** `count_file_loc`: the number of code lines of the file, or 0 when it
      cannot be read. */
  function CountFileLoc(fs: Node, path: string, cwd: AbsPath): (n: nat)
    ensures ReadLines(fs, path, cwd).None? ==> n == 0
    ensures ReadLines(fs, path, cwd).Some? ==> n <= |ReadLines(fs, path, cwd).value|
  {
    match ReadLines(fs, path, cwd)
    case None => 0
    case Some(lines) => CountCodeLines(lines)
  }

  /** The count of a readable file is the number of its lines with something
      other than whitespace before the first comment marker. */
  lemma CountFileLocMeaning(fs: Node, path: string, cwd: AbsPath)
    requires ReadLines(fs, path, cwd).Some?
    ensures var lines := ReadLines(fs, path, cwd).value;
            CountFileLoc(fs, path, cwd) == |set i | 0 <= i < |lines| && HasCodeBeforeComment(lines[i])|
  {
    CountCodeLinesMeaning(ReadLines(fs, path, cwd).value);
  }

  /** A path that names a directory, or nothing, counts 0. */
  lemma NonFileCountsZero(fs: Node, path: string, cwd: AbsPath)
    requires var e := Lookup(fs, AbsPathOf(path, cwd).parts); e.None? || e.value.Dir?
    ensures CountFileLoc(fs, path, cwd) == 0
  {
  }

  // ---------------------------------------------------------------------
  // Folding the walked files

  /** The sum of the counts `loc` gives the files `paths`, first to last. */
  function SumLoc(paths: seq<string>, loc: string -> nat): nat
    decreases |paths|
  {
    if |paths| == 0 then 0 else loc(paths[0]) + SumLoc(paths[1..], loc)
  }

  lemma {:induction false} SumLocSnoc(paths: seq<string>, p: string, loc: string -> nat)
    ensures SumLoc(paths + [p], loc) == SumLoc(paths, loc) + loc(p)
    decreases |paths|
  {
    if |paths| == 0 {
      assert (paths + [p])[1..] == [];
    } else {
      assert (paths + [p])[1..] == paths[1..] + [p];
      SumLocSnoc(paths[1..], p, loc);
    }
  }

  /** The state of `count_loc`'s loop: the per-file mapping and the total. */
  datatype Tally = Tally(counts: map<string, nat>, total: nat)

  /** The loop of `count_loc` over `paths`, with `loc` counting one file:
      every count is added to the total, and recorded under its path when
      `perFile` is set. */
  function Accumulate(paths: seq<string>, loc: string -> nat, perFile: bool): (t: Tally)
    ensures perFile ==> t.counts.Keys == set i | 0 <= i < |paths| :: paths[i]
    ensures !perFile ==> t.counts == map[]
    ensures forall p :: p in t.counts ==> t.counts[p] == loc(p)
    decreases |paths|
  {
    if |paths| == 0 then Tally(map[], 0)
    else
      var front := paths[..|paths| - 1];
      var p := paths[|paths| - 1];
      var t := Accumulate(front, loc, perFile);
      var n := loc(p);
      assert forall i :: 0 <= i < |front| ==> front[i] == paths[i];
      assert (set i | 0 <= i < |paths| :: paths[i]) == (set i | 0 <= i < |front| :: front[i]) + {p};
      Tally(if perFile then t.counts[p := n] else t.counts, t.total + n)
  }

  /** The loop's total is the sum of the files' counts, with or without the
      per-file mapping. */
  lemma {:induction false} AccumulateTotal(paths: seq<string>, loc: string -> nat, perFile: bool)
    ensures Accumulate(paths, loc, perFile).total == SumLoc(paths, loc)
    decreases |paths|
  {
    if |paths| > 0 {
      var front := paths[..|paths| - 1];
      AccumulateTotal(front, loc, perFile);
      SumLocSnoc(front, paths[|paths| - 1], loc);
      assert front + [paths[|paths| - 1]] == paths;
    }
  }

  /** The sum of the values of a mapping. */
  ghost function MapSum(m: map<string, nat>): nat
    decreases |m|
  {
    if |m| == 0 then 0
    else
      var k :| k in m;
      m[k] + MapSum(m - {k})
  }

  /** The key MapSum takes out of a non-empty mapping first. */
  lemma PickedKey(m: map<string, nat>) returns (j: string)
    requires |m| > 0
    ensures j in m && MapSum(m) == m[j] + MapSum(m - {j})
  {
    j :| j in m && MapSum(m) == m[j] + MapSum(m - {j});
  }

  /** MapSum does not depend on which key is taken out first. */
  lemma {:induction false} MapSumRemove(m: map<string, nat>, k: string)
    requires k in m
    ensures MapSum(m) == m[k] + MapSum(m - {k})
    decreases |m|
  {
    var j := PickedKey(m);
    if j != k {
      var mj, mk := m - {j}, m - {k};
      assert k in mj && j in mk;
      assert |mj| < |m| && |mk| < |m|;
      MapSumRemove(mj, k);
      MapSumRemove(mk, j);
      assert mj - {k} == mk - {j};
    }
  }

  /** With every path listed once, the per-file counts add up to the total. */
  lemma {:induction false} AccumulateMapSum(paths: seq<string>, loc: string -> nat)
    requires NoDup(paths)
    ensures var t := Accumulate(paths, loc, true); MapSum(t.counts) == t.total
    decreases |paths|
  {
    if |paths| > 0 {
      var front := paths[..|paths| - 1];
      var p := paths[|paths| - 1];
      var t := Accumulate(front, loc, true);
      AccumulateMapSum(front, loc);
      forall i | 0 <= i < |front| ensures front[i] != p {
        assert front[i] == paths[i];
      }
      assert p !in t.counts;
      var m := t.counts[p := loc(p)];
      MapSumRemove(m, p);
      assert m - {p} == t.counts;
    }
  }

  // ---------------------------------------------------------------------
  // count_loc

  /** What `count_loc` returns: the mapping and the total when per-file
      counts are asked for, the total alone otherwise. */
  datatype LocReport =
    | PerFile(counts: map<string, nat>, total: nat)
    | TotalOnly(total: nat)

  /** How `count_loc` counts one file of `fs`. */
  function FileLoc(fs: Node, cwd: AbsPath): string -> nat {
    p => CountFileLoc(fs, p, cwd)
  }

  /** `count_loc`: walk the root and count every yielded file. */
  function CountLoc(fs: Node, root: string, perFile: bool, patterns: seq<string>, includeHidden: bool, cwd: AbsPath): (r: LocReport)
    ensures r.PerFile? <==> perFile
    ensures r.total == SumLoc(IterPythonFiles(fs, root, patterns, includeHidden, cwd), FileLoc(fs, cwd))
  {
    var files := IterPythonFiles(fs, root, patterns, includeHidden, cwd);
    var t := Accumulate(files, FileLoc(fs, cwd), perFile);
    AccumulateTotal(files, FileLoc(fs, cwd), perFile);
    if perFile then PerFile(t.counts, t.total) else TotalOnly(t.total)
  }

  /** The per-file switch changes only the shape of the result, not the
      total. */
  lemma PerFileSwitchKeepsTotal(fs: Node, root: string, patterns: seq<string>, includeHidden: bool, cwd: AbsPath)
    ensures CountLoc(fs, root, true, patterns, includeHidden, cwd).total
         == CountLoc(fs, root, false, patterns, includeHidden, cwd).total
  {
  }

  /** The per-file mapping has exactly the walked files as keys, each with
      its own count, and its values add up to the total. */
  lemma CountLocPerFile(fs: Node, root: string, patterns: seq<string>, includeHidden: bool, cwd: AbsPath)
    requires fs.Dir? && WellFormed(fs.children)
    ensures var r := CountLoc(fs, root, true, patterns, includeHidden, cwd);
            var files := IterPythonFiles(fs, root, patterns, includeHidden, cwd);
            && r.counts.Keys == (set i | 0 <= i < |files| :: files[i])
            && (forall p :: p in r.counts ==> r.counts[p] == CountFileLoc(fs, p, cwd))
            && MapSum(r.counts) == r.total
  {
    var files := IterPythonFiles(fs, root, patterns, includeHidden, cwd);
    IterPythonFilesNoDup(fs, root, patterns, includeHidden, cwd);
    AccumulateMapSum(files, FileLoc(fs, cwd));
  }

  /** A walked file that cannot be read is still reported, with count 0. */
  lemma UnreadableFileReported(fs: Node, root: string, patterns: seq<string>, includeHidden: bool, cwd: AbsPath, p: string)
    requires fs.Dir? && WellFormed(fs.children)
    requires p in IterPythonFiles(fs, root, patterns, includeHidden, cwd)
    requires ReadLines(fs, p, cwd).None?
    ensures var r := CountLoc(fs, root, true, patterns, includeHidden, cwd); p in r.counts && r.counts[p] == 0
  {
    var files := IterPythonFiles(fs, root, patterns, includeHidden, cwd);
    CountLocPerFile(fs, root, patterns, includeHidden, cwd);
    var i :| 0 <= i < |files| && files[i] == p;
    assert p in set j | 0 <= j < |files| :: files[j];
  }
}

=== FILE: glob.dfy ===
/** Shell-style pattern matching with the semantics of Python's
    `fnmatch.fnmatch` on POSIX (case-sensitive, no path-separator
    special-casing): `*` matches any run of characters including `/`, `?`
    matches one character, and `[...]` is a character class. A pattern is
    first translated into tokens, the way `fnmatch.translate` of CPython 3.12
    turns it into a regular expression, and the tokens must then match the
    whole name. */
module Glob {
  import opened Wrappers

  /** One member of a bracket class: a character or an inclusive range. */
  datatype ClassItem = Single(c: char) | Range(lo: char, hi: char)

  datatype Token =
    | Star                                          // `*`
    | AnyChar                                       // `?`
    | Lit(c: char)                                  // any other character, or an unclosed `[`
    | Class(negated: bool, items: seq<ClassItem>)   // `[...]`, `[!...]`

  /** The first index at or after `from` where `s` holds `c`. */
  function FindFrom(s: string, from: nat, c: char): (r: Option<nat>)
    requires from <= |s|
    ensures r.Some? ==> from <= r.value < |s| && s[r.value] == c
    ensures r.Some? ==> forall k :: from <= k < r.value ==> s[k] != c
    ensures r.None? ==> forall k :: from <= k < |s| ==> s[k] != c
    decreases |s| - from
  {
    if from == |s| then None
    else if s[from] == c then Some(from)
    else FindFrom(s, from + 1, c)
  }

  /** The index of the `]` that closes a class whose body starts at `start`
      (just after the `[`). A `!` right after the `[`, and then a `]` right
      after that, belong to the body; None when the class is never closed. */
  function ClassClose(pat: string, start: nat): (r: Option<nat>)
    requires start <= |pat|
    ensures r.Some? ==> start <= r.value < |pat| && pat[r.value] == ']'
  {
    var afterBang := if start < |pat| && pat[start] == '!' then start + 1 else start;
    var bodyFrom := if afterBang < |pat| && pat[afterBang] == ']' then afterBang + 1 else afterBang;
    FindFrom(pat, bodyFrom, ']')
  }

  /** The members of a class body, read left to right: `a-b` is a range when
      a character follows the hyphen, every other character stands for
      itself (so a leading or trailing `-` is literal). */
  function ClassItems(body: string): (r: seq<ClassItem>)
    decreases |body|
  {
    if |body| == 0 then []
    else if |body| >= 3 && body[1] == '-' then [Range(body[0], body[2])] + ClassItems(body[3..])
    else [Single(body[0])] + ClassItems(body[1..])
  }

  /** A range whose ends are out of order: it stands for no character. */
  predicate EmptyRange(item: ClassItem) {
    item.Range? && item.lo > item.hi
  }

  /** The items with the empty ranges taken out. translate removes them before
      it looks at the first character of the class, since `re` rejects them. */
  function DropEmptyRanges(items: seq<ClassItem>): (r: seq<ClassItem>)
    ensures |r| <= |items|
    ensures forall k :: 0 <= k < |r| ==> !EmptyRange(r[k])
    decreases |items|
  {
    if |items| == 0 then []
    else if EmptyRange(items[0]) then DropEmptyRanges(items[1..])
    else [items[0]] + DropEmptyRanges(items[1..])
  }

  /** Whether the first item starts with `!`. Once the empty ranges before it
      are gone, translate reads that `!` as negation: alone it becomes `.`,
      and a range `!-x` becomes the literals `-` and `x` after the `^`. */
  predicate LeadsWithBang(items: seq<ClassItem>) {
    |items| > 0 && (items[0] == Single('!') || (items[0].Range? && items[0].lo == '!'))
  }

  /** The token of a closed class body, as CPython 3.12's translate builds it.
      A leading `!` negates; otherwise the empty ranges are removed first, and
      a `!` that then comes first negates as well. An empty result accepts
      nothing, and a negated empty result accepts every character. */
  function ClassToken(body: string): (r: Token)
    ensures r.Class?
    ensures forall k :: 0 <= k < |r.items| ==> !EmptyRange(r.items[k])
  {
    if |body| > 0 && body[0] == '!' then Class(true, DropEmptyRanges(ClassItems(body[1..])))
    else
      var items := DropEmptyRanges(ClassItems(body));
      if !LeadsWithBang(items) then Class(false, items)
      else if items[0].Single? then Class(true, items[1..])
      else Class(true, [Single('-'), Single(items[0].hi)] + items[1..])
  }

  /** The characters that have a meaning in a pattern. */
  predicate IsMeta(c: char) {
    c == '*' || c == '?' || c == '['
  }

  predicate NoMeta(s: string) {
    forall i :: 0 <= i < |s| ==> !IsMeta(s[i])
  }

  /** One literal token per character of `s`. */
  function LitTokens(s: string): seq<Token> {
    seq(|s|, i requires 0 <= i < |s| => Lit(s[i]))
  }

  /** `fnmatch.translate`, as a token sequence rather than a regular
      expression. Every token stands for at least one pattern character, and
      a pattern without `*`, `?` or `[` becomes one literal per character. */
  function Parse(pat: string): (r: seq<Token>)
    ensures |r| <= |pat|
    ensures |r| == 0 <==> |pat| == 0
    ensures NoMeta(pat) ==> r == LitTokens(pat)
    decreases |pat|
  {
    if |pat| == 0 then []
    else if pat[0] == '*' then [Star] + Parse(pat[1..])
    else if pat[0] == '?' then [AnyChar] + Parse(pat[1..])
    else if pat[0] == '[' then
      match ClassClose(pat, 1)
      case None => [Lit('[')] + Parse(pat[1..])
      case Some(j) => [ClassToken(pat[1..j])] + Parse(pat[j + 1..])
    else
      assert NoMeta(pat) ==> NoMeta(pat[1..]) && LitTokens(pat) == [Lit(pat[0])] + LitTokens(pat[1..]);
      [Lit(pat[0])] + Parse(pat[1..])
  }

  predicate ItemHas(item: ClassItem, c: char) {
    match item
    case Single(x) => c == x
    case Range(lo, hi) => lo <= c <= hi
  }

  /** Whether a single-character token accepts `c`. A range whose ends are out
      of order accepts nothing; `?` accepts every character, newline included. */
  predicate Accepts(t: Token, c: char)
    requires !t.Star?
  {
    match t
    case AnyChar => true
    case Lit(x) => c == x
    case Class(negated, items) => InItems(items, c) != negated
  }

  /** Some item of a class holds `c`. */
  predicate InItems(items: seq<ClassItem>, c: char) {
    exists k :: 0 <= k < |items| && ItemHas(items[k], c)
  }

  /** No token is `*`. */
  predicate StarFree(toks: seq<Token>)
    decreases |toks|
  {
    |toks| == 0 || (!toks[0].Star? && StarFree(toks[1..]))
  }

  /** Whether the tokens match the whole of `s`; without `*` each token
      consumes exactly one character. */
  function MatchTokens(toks: seq<Token>, s: string): (r: bool)
    ensures r && StarFree(toks) ==> |s| == |toks|
    decreases |toks| + |s|
  {
    if |toks| == 0 then |s| == 0
    else if toks[0].Star? then
      MatchTokens(toks[1..], s) || (|s| > 0 && MatchTokens(toks, s[1..]))
    else
      |s| > 0 && Accepts(toks[0], s[0]) && MatchTokens(toks[1..], s[1..])
  }

  /** `fnmatch.fnmatch(name, pat)` on POSIX. A pattern without `*`, `?` or
      `[` matches exactly the string it spells. */
  function Fnmatch(name: string, pat: string): (r: bool)
    ensures NoMeta(pat) ==> (r <==> name == pat)
  {
    MatchLits(name, pat);
    MatchTokens(Parse(pat), name)
  }

  /** Literal tokens match exactly the string they spell. */
  lemma {:induction false} MatchLits(s: string, p: string)
    ensures MatchTokens(LitTokens(p), s) <==> s == p
    decreases |p|
  {
    if |p| > 0 {
      assert LitTokens(p)[1..] == LitTokens(p[1..]);
      if |s| > 0 {
        MatchLits(s[1..], p[1..]);
        if s[0] == p[0] && s[1..] == p[1..] {
          assert s == [s[0]] + s[1..] && p == [p[0]] + p[1..];
        }
      }
    }
  }

  /** A sequence of tokens matches a string exactly when the string splits into
      a part matched by the first tokens and a part matched by the rest. */
  lemma {:induction false} MatchConcat(t1: seq<Token>, t2: seq<Token>, s: string)
    ensures MatchTokens(t1 + t2, s) <==>
            exists k :: 0 <= k <= |s| && MatchTokens(t1, s[..k]) && MatchTokens(t2, s[k..])
    decreases |t1| + |s|, 1
  {
    if |t1| == 0 {
      assert t1 + t2 == t2;
      if MatchTokens(t2, s) {
        assert s[..0] == [] && s[0..] == s;
      }
    } else if t1[0].Star? {
      MatchConcatStar(t1, t2, s);
    } else {
      MatchConcatOne(t1, t2, s);
    }
  }

  /** MatchConcat when the first token is `*`. */
  lemma {:induction false} MatchConcatStar(t1: seq<Token>, t2: seq<Token>, s: string)
    requires |t1| > 0 && t1[0].Star?
    ensures MatchTokens(t1 + t2, s) <==>
            exists k :: 0 <= k <= |s| && MatchTokens(t1, s[..k]) && MatchTokens(t2, s[k..])
    decreases |t1| + |s|, 0
  {
    assert (t1 + t2)[0] == t1[0];
    assert (t1 + t2)[1..] == t1[1..] + t2;
    MatchConcat(t1[1..], t2, s);
    if |s| > 0 {
      MatchConcat(t1, t2, s[1..]);
    }
    if MatchTokens(t1 + t2, s) {
      if MatchTokens(t1[1..] + t2, s) {
        var k :| 0 <= k <= |s| && MatchTokens(t1[1..], s[..k]) && MatchTokens(t2, s[k..]);
        assert MatchTokens(t1, s[..k]);
      } else {
        var k :| 0 <= k <= |s| - 1 && MatchTokens(t1, s[1..][..k]) && MatchTokens(t2, s[1..][k..]);
        assert s[..k + 1][1..] == s[1..][..k];
        assert s[k + 1..] == s[1..][k..];
        assert MatchTokens(t1, s[..k + 1]);
      }
    }
    if exists k :: 0 <= k <= |s| && MatchTokens(t1, s[..k]) && MatchTokens(t2, s[k..]) {
      var k :| 0 <= k <= |s| && MatchTokens(t1, s[..k]) && MatchTokens(t2, s[k..]);
      if !MatchTokens(t1[1..], s[..k]) {
        assert k > 0 && MatchTokens(t1, s[..k][1..]);
        assert s[..k][1..] == s[1..][..k - 1];
        assert s[k..] == s[1..][k - 1..];
      }
    }
  }

  /** MatchConcat when the first token consumes one character. */
  lemma {:induction false} MatchConcatOne(t1: seq<Token>, t2: seq<Token>, s: string)
    requires |t1| > 0 && !t1[0].Star?
    ensures MatchTokens(t1 + t2, s) <==>
            exists k :: 0 <= k <= |s| && MatchTokens(t1, s[..k]) && MatchTokens(t2, s[k..])
    decreases |t1| + |s|, 0
  {
    assert (t1 + t2)[0] == t1[0];
    assert (t1 + t2)[1..] == t1[1..] + t2;
    if |s| > 0 {
      MatchConcat(t1[1..], t2, s[1..]);
    }
    if MatchTokens(t1 + t2, s) {
      var k :| 0 <= k <= |s| - 1 && MatchTokens(t1[1..], s[1..][..k]) && MatchTokens(t2, s[1..][k..]);
      assert s[..k + 1][1..] == s[1..][..k];
      assert s[k + 1..] == s[1..][k..];
      assert MatchTokens(t1, s[..k + 1]);
    }
    if exists k :: 0 <= k <= |s| && MatchTokens(t1, s[..k]) && MatchTokens(t2, s[k..]) {
      var k :| 0 <= k <= |s| && MatchTokens(t1, s[..k]) && MatchTokens(t2, s[k..]);
      assert k > 0;
      assert s[..k][1..] == s[1..][..k - 1];
      assert s[k..] == s[1..][k - 1..];
    }
  }

  /** A lone `*` matches every string, path separators included. */
  lemma {:induction false} StarMatchesAll(s: string)
    ensures MatchTokens([Star], s)
    ensures Fnmatch(s, "*")
    decreases |s|
  {
    assert [Star][1..] == [];
    if |s| > 0 {
      StarMatchesAll(s[1..]);
    }
    assert Parse("*") == [Star] + Parse("");
  }

  /** `*` followed by a pattern `p` matches exactly the strings some suffix of
      which `p` matches. */
  lemma StarPrefix(s: string, p: string)
    ensures Fnmatch(s, "*" + p) <==> exists k :: 0 <= k <= |s| && Fnmatch(s[k..], p)
  {
    assert ("*" + p)[1..] == p;
    assert Parse("*" + p) == [Star] + Parse(p);
    MatchConcat([Star], Parse(p), s);
    forall k | 0 <= k <= |s| {
      StarMatchesAll(s[..k]);
    }
  }

  /** `?` followed by a pattern `p` matches exactly the strings whose first
      character is followed by a match of `p`: `?` takes one character, any. */
  lemma QuestionPrefix(s: string, p: string)
    ensures Fnmatch(s, "?" + p) <==> |s| > 0 && Fnmatch(s[1..], p)
  {
    assert ("?" + p)[0] == '?' && ("?" + p)[1..] == p;
    assert Parse("?" + p) == [AnyChar] + Parse(p);
    assert ([AnyChar] + Parse(p))[1..] == Parse(p);
  }

  /** A `[` that no `]` closes stands for itself: `[` followed by `p` matches
      exactly the strings that start with `[` followed by a match of `p`. */
  lemma UnclosedBracket(s: string, p: string)
    requires ClassClose("[" + p, 1) == None
    ensures Fnmatch(s, "[" + p) <==> |s| > 0 && s[0] == '[' && Fnmatch(s[1..], p)
  {
    assert ("[" + p)[0] == '[' && ("[" + p)[1..] == p;
    assert Parse("[" + p) == [Lit('[')] + Parse(p);
    assert ([Lit('[')] + Parse(p))[1..] == Parse(p);
  }

  /** `[` + `body` + `]` is a class closed by that last `]`: the body is not
      empty once a leading `!` is set aside, and it holds no `]` past the one
      that may come first (or right after the `!`) and stands for itself. */
  predicate ClosedBody(body: string) {
    var a := if |body| > 0 && body[0] == '!' then 1 else 0;
    && a < |body|
    && var b := if body[a] == ']' then a + 1 else a;
       forall k :: b <= k < |body| ==> body[k] != ']'
  }

  /** The tokens of a closed class `[body]` followed by `rest`. */
  lemma ParseClosedClass(body: string, rest: string)
    requires ClosedBody(body)
    ensures Parse("[" + body + "]" + rest) == [ClassToken(body)] + Parse(rest)
  {
    var p := "[" + body + "]" + rest;
    assert p[1..|body| + 1] == body;
    assert p[|body| + 2..] == rest;
    assert p[|body| + 1] == ']';
    assert forall k :: 1 <= k < |body| + 1 ==> p[k] == body[k - 1];
    assert ClassClose(p, 1) == Some(|body| + 1);
  }

  /** Taking out the empty ranges keeps every character a class holds. */
  lemma {:induction false} DropEmptyRangesKeeps(items: seq<ClassItem>, c: char)
    ensures InItems(DropEmptyRanges(items), c) <==> InItems(items, c)
    decreases |items|
  {
    if |items| > 0 {
      DropEmptyRangesKeeps(items[1..], c);
      var d := DropEmptyRanges(items[1..]);
      if InItems(items, c) {
        var k :| 0 <= k < |items| && ItemHas(items[k], c);
        if k > 0 {
          assert ItemHas(items[1..][k - 1], c);
        }
      }
      if InItems(items[1..], c) {
        var k :| 0 <= k < |items[1..]| && ItemHas(items[1..][k], c);
        assert ItemHas(items[k + 1], c);
      }
      if !EmptyRange(items[0]) {
        assert DropEmptyRanges(items) == [items[0]] + d;
        if InItems([items[0]] + d, c) {
          var k :| 0 <= k < |d| + 1 && ItemHas(([items[0]] + d)[k], c);
          if k > 0 {
            assert ItemHas(d[k - 1], c);
          }
        }
        if InItems(d, c) {
          var k :| 0 <= k < |d| && ItemHas(d[k], c);
          assert ItemHas(([items[0]] + d)[k + 1], c);
        }
        if ItemHas(items[0], c) {
          assert ItemHas(([items[0]] + d)[0], c);
        }
      }
    }
  }

  /** `[!body]`'s token accepts exactly the characters no item of `body`
      holds. */
  lemma NegatedTokenAccepts(body: string, c: char)
    ensures Accepts(ClassToken("!" + body), c) <==> !InItems(ClassItems(body), c)
  {
    assert ("!" + body)[1..] == body;
    DropEmptyRangesKeeps(ClassItems(body), c);
  }

  /** Without a leading `!`, and unless a `!` comes first once the empty
      ranges are gone, `[body]`'s token accepts exactly the characters some
      item holds. */
  lemma PlainTokenAccepts(body: string, c: char)
    requires !(|body| > 0 && body[0] == '!')
    requires !LeadsWithBang(DropEmptyRanges(ClassItems(body)))
    ensures Accepts(ClassToken(body), c) <==> InItems(ClassItems(body), c)
  {
    DropEmptyRangesKeeps(ClassItems(body), c);
  }

  /** Whether the one-character string `[c]` matches the closed class `[body]`. */
  lemma MatchOneClass(c: char, body: string)
    requires ClosedBody(body)
    ensures Fnmatch([c], "[" + body + "]") == Accepts(ClassToken(body), c)
  {
    ParseClosedClass(body, "");
    assert "[" + body + "]" + "" == "[" + body + "]";
    assert Parse("") == [];
    assert [c][1..] == [];
    var tok := ClassToken(body);
    assert MatchTokens([tok], [c]) == Accepts(tok, c);
  }

  /** `[!body]` accepts exactly the characters that no item of `body` holds. */
  lemma NegatedClassMatch(c: char, body: string)
    requires ClosedBody("!" + body)
    ensures Fnmatch([c], "[!" + body + "]") <==> !InItems(ClassItems(body), c)
  {
    MatchOneClass(c, "!" + body);
    assert "[" + ("!" + body) + "]" == "[!" + body + "]";
    NegatedTokenAccepts(body, c);
  }

  /** `[body]` accepts exactly the characters some item of `body` holds, when
      no `!` comes first before or after the empty ranges are taken out. */
  lemma PlainClassMatch(c: char, body: string)
    requires ClosedBody(body) && body[0] != '!'
    requires !LeadsWithBang(DropEmptyRanges(ClassItems(body)))
    ensures Fnmatch([c], "[" + body + "]") <==> InItems(ClassItems(body), c)
  {
    MatchOneClass(c, body);
    PlainTokenAccepts(body, c);
  }

  /** `[!body]` accepts exactly the characters that no item of `body` holds,
      a leading `]` included. That is the complement of `[body]` unless `body`
      leads with `!` once its empty ranges are gone: translate then reads
      `[body]` as negated too (see EmptyRangeThenBang). */
  lemma NegatedClass(c: char, body: string)
    requires |body| > 0 && body[0] != '!' && ClosedBody(body)
    ensures Fnmatch([c], "[!" + body + "]") <==> !InItems(ClassItems(body), c)
    ensures !LeadsWithBang(DropEmptyRanges(ClassItems(body))) ==>
              Fnmatch([c], "[!" + body + "]") == !Fnmatch([c], "[" + body + "]")
  {
    assert ClosedBody("!" + body) by {
      assert forall k :: 1 <= k < |body| + 1 ==> ("!" + body)[k] == body[k - 1];
    }
    NegatedClassMatch(c, body);
    if !LeadsWithBang(DropEmptyRanges(ClassItems(body))) {
      PlainClassMatch(c, body);
    }
  }

  /** The tokens of `[b-a!]` and `[b-a!x]`: the empty range goes first, and
      the `!` left in front then negates. */
  lemma EmptyRangeThenBangTokens()
    ensures ClassToken("b-a!") == Class(true, [])
    ensures ClassToken("b-a!x") == Class(true, [Single('x')])
  {
    assert "b-a!"[3..][1..] == [];
    assert ClassItems("b-a!") == [Range('b', 'a'), Single('!')];
    assert "b-a!x"[3..][1..][1..] == [];
    assert ClassItems("b-a!x") == [Range('b', 'a'), Single('!'), Single('x')];
    assert [Range('b', 'a'), Single('!')][1..] == [Single('!')];
    assert [Single('!')][1..] == [];
    assert DropEmptyRanges([Single('!')]) == [Single('!')];
    assert [Range('b', 'a'), Single('!'), Single('x')][1..] == [Single('!'), Single('x')];
    assert [Single('!'), Single('x')][1..] == [Single('x')];
    assert [Single('x')][1..] == [];
    assert DropEmptyRanges([Single('!'), Single('x')]) == [Single('!'), Single('x')];
  }

  /** An empty range is removed before translate looks for a leading `!`:
      `[b-a!]` accepts every character, and `[b-a!x]` every character but `x`. */
  lemma EmptyRangeThenBang(c: char)
    ensures Fnmatch([c], "[b-a!]")
    ensures Fnmatch([c], "[b-a!x]") <==> c != 'x'
  {
    EmptyRangeThenBangTokens();
    assert ClosedBody("b-a!") && ClosedBody("b-a!x");
    MatchOneClass(c, "b-a!");
    MatchOneClass(c, "b-a!x");
    assert "[" + "b-a!" + "]" == "[b-a!]";
    assert "[" + "b-a!x" + "]" == "[b-a!x]";
    if c == 'x' {
      assert ItemHas([Single('x')][0], c);
    }
  }

  /** `[lo-hi]` accepts exactly the characters from `lo` to `hi`, and none
      when `hi` comes before `lo`. */
  lemma RangeClass(c: char, lo: char, hi: char)
    requires lo != '!' && hi != ']'
    ensures Fnmatch([c], ['[', lo, '-', hi, ']']) <==> lo <= c <= hi
  {
    var body := [lo, '-', hi];
    assert ClosedBody(body);
    MatchOneClass(c, body);
    assert ['[', lo, '-', hi, ']'] == "[" + body + "]";
    assert body[3..] == [] && ClassItems(body[3..]) == [];
    assert ClassItems(body) == [Range(lo, hi)];
    assert [Range(lo, hi)][1..] == [];
    PlainTokenAccepts(body, c);
    if lo <= c <= hi {
      assert ItemHas([Range(lo, hi)][0], c);
    }
  }

  /** A `]` right after the `[` is a member of the class, not its end:
      `[]a]` accepts exactly `]` and `a`. */
  lemma LeadingBracketIsMember(c: char)
    ensures Fnmatch([c], "[]a]") <==> c == ']' || c == 'a'
  {
    var body := "]a";
    assert ClosedBody(body);
    ParseClosedClass(body, "");
    assert "[]a]" == "[" + body + "]" + "";
    assert Parse("") == [];
    assert body[1..][1..] == [] && ClassItems(body[1..][1..]) == [];
    var tok := ClassToken(body);
    assert tok == Class(false, [Single(']'), Single('a')]);
    assert [c][1..] == [];
    assert MatchTokens([tok], [c]) == Accepts(tok, c);
    if c == ']' {
      assert ItemHas(tok.items[0], c);
    } else if c == 'a' {
      assert ItemHas(tok.items[1], c);
    }
  }
}

=== FILE: ignore.dfy ===
/** `should_ignore`: whether a path is excluded from the scan, by the hidden
    policy or by a glob pattern matching one of the path's forms. */
module Ignore {
  import opened Wrappers
  import opened Glob
  import opened Paths

  /** The first character of a hidden name. */
  const HiddenMarker: char := '.'

  predicate IsHidden(name: string) {
    |name| > 0 && name[0] == HiddenMarker
  }

  /** The three forms of a path that every candidate pattern is tried on: the
      path relative to the root, the absolute path, and the basename. */
  datatype Forms = Forms(rel: string, abs: string, name: string)

  /** The forms of `path`. Should `relpath` fail, the absolute path stands in
      for the relative one; on POSIX it never fails here, since the absolute
      text is never empty, so the relative form is always the path relative to
      the root, and the absolute form names the same path as `path`. */
  function PathForms(path: string, rootAbs: string, cwd: AbsPath): (f: Forms)
    ensures f.rel == RelText(AbsPathOf(rootAbs, cwd).parts, AbsPathOf(path, cwd).parts)
    ensures AbsPathOf(f.abs, cwd) == AbsPathOf(path, cwd)
  {
    RenderRoundTrip(AbsPathOf(path, cwd), cwd);
    var absPath := Render(AbsPathOf(path, cwd));
    var rel := match RelPath(absPath, rootAbs, cwd)
               case Some(r) => r
               case None => absPath;
    Forms(rel, absPath, Basename(path))
  }

  /** The forms a pattern is tried in: the pattern itself, and for an absolute
      pattern its form relative to the root (when `relpath` succeeds), for a
      relative one its absolute form under the root. */
  function Candidates(pattern: string, rootAbs: string, cwd: AbsPath): (r: seq<string>)
    ensures 1 <= |r| <= 2 && r[0] == pattern
  {
    if IsAbs(pattern) then
      [pattern] + match RelPath(pattern, rootAbs, cwd)
                  case Some(rel) => [rel]
                  case None => []
    else
      [pattern, Render(AbsPathOf(JoinPath(rootAbs, pattern), cwd))]
  }

  /** A candidate matches when it glob-matches any of the three forms. */
  predicate FormsMatch(forms: Forms, candidate: string) {
    || Fnmatch(forms.rel, candidate)
    || Fnmatch(forms.abs, candidate)
    || Fnmatch(forms.name, candidate)
  }

  /** The candidate loop, stopping at the first candidate that matches. */
  function AnyCandidateMatches(forms: Forms, candidates: seq<string>): (r: bool)
    ensures r <==> exists j :: 0 <= j < |candidates| && FormsMatch(forms, candidates[j])
  {
    if |candidates| == 0 then false
    else FormsMatch(forms, candidates[0]) || AnyCandidateMatches(forms, candidates[1..])
  }

  predicate PatternHits(forms: Forms, pattern: string, rootAbs: string, cwd: AbsPath) {
    AnyCandidateMatches(forms, Candidates(pattern, rootAbs, cwd))
  }

  /** The pattern loop, stopping at the first pattern with a matching candidate. */
  function AnyPatternHits(forms: Forms, patterns: seq<string>, rootAbs: string, cwd: AbsPath): (r: bool)
    ensures r <==> exists k :: 0 <= k < |patterns| && PatternHits(forms, patterns[k], rootAbs, cwd)
  {
    if |patterns| == 0 then false
    else PatternHits(forms, patterns[0], rootAbs, cwd) || AnyPatternHits(forms, patterns[1..], rootAbs, cwd)
  }

  /** `should_ignore(path, patterns, root, include_hidden)`, with the working
      directory that `abspath` consults as a parameter. A hidden name is
      excluded first, whatever the patterns; otherwise the path is excluded
      exactly when some pattern has some candidate form matching one of the
      path's forms, which makes the order of the patterns irrelevant. */
  function ShouldIgnore(path: string, patterns: seq<string>, root: string, includeHidden: bool, cwd: AbsPath): (r: bool)
    ensures !includeHidden && IsHidden(Basename(path)) ==> r
    ensures |patterns| == 0 ==> (r <==> !includeHidden && IsHidden(Basename(path)))
    ensures r <==> || (!includeHidden && IsHidden(Basename(path)))
                   || exists pat :: pat in patterns &&
                        PatternHits(PathForms(path, Render(AbsPathOf(root, cwd)), cwd), pat, Render(AbsPathOf(root, cwd)), cwd)
  {
    var rootAbs := Render(AbsPathOf(root, cwd));
    var forms := PathForms(path, rootAbs, cwd);
    if !includeHidden && IsHidden(forms.name) then true
    else if |patterns| == 0 then false
    else AnyPatternHits(forms, patterns, rootAbs, cwd)
  }

  /** Reordering or repeating patterns does not change the verdict: only the
      set of patterns matters. */
  lemma PatternOrderIrrelevant(path: string, ps1: seq<string>, ps2: seq<string>, root: string, includeHidden: bool, cwd: AbsPath)
    requires forall pat :: pat in ps1 <==> pat in ps2
    ensures ShouldIgnore(path, ps1, root, includeHidden, cwd) == ShouldIgnore(path, ps2, root, includeHidden, cwd)
  {
  }

  /** The walk hands `should_ignore` a root it has already made absolute;
      the verdict is the one the root as given would get. */
  lemma AbsoluteRootSameVerdict(path: string, patterns: seq<string>, root: string, includeHidden: bool, cwd: AbsPath)
    ensures ShouldIgnore(path, patterns, Render(AbsPathOf(root, cwd)), includeHidden, cwd)
         == ShouldIgnore(path, patterns, root, includeHidden, cwd)
  {
    RenderRoundTrip(AbsPathOf(root, cwd), cwd);
  }

  /** An absolute pattern under the root is also tried relative to the root. */
  lemma AbsolutePatternRelativeForm(root: AbsPath, q: seq<string>, cwd: AbsPath)
    requires AllValid(root.parts) && AllValid(q) && |q| > 0
    ensures JoinSep(q) in Candidates(Render(AbsPath(root.parts + q)), Render(root), cwd)
  {
    RelPathBelow(root, q, cwd);
  }

  /** A relative pattern is also tried as the absolute path under the root. */
  lemma RelativePatternAbsoluteForm(root: AbsPath, q: seq<string>, cwd: AbsPath)
    requires AllValid(root.parts) && AllValid(q) && |q| > 0
    ensures Render(AbsPath(root.parts + q)) in Candidates(JoinSep(q), Render(root), cwd)
  {
    JoinSepHead(q);
    JoinBelow(root, q, cwd);
  }

  /** A literal relative pattern excludes the entry it names below the root. */
  lemma RelativePatternExcludes(root: AbsPath, q: seq<string>, includeHidden: bool, cwd: AbsPath)
    requires AllValid(root.parts) && AllValid(q) && |q| > 0 && NoMeta(JoinSep(q))
    ensures ShouldIgnore(Render(AbsPath(root.parts + q)), [JoinSep(q)], Render(root), includeHidden, cwd)
  {
    var full := AbsPath(root.parts + q);
    AllValidConcat(root.parts, q);
    RenderRoundTrip(full, cwd);
    RenderRoundTrip(root, cwd);
    RelPathBelow(root, q, cwd);
    var forms := PathForms(Render(full), Render(root), cwd);
    assert forms.rel == JoinSep(q);
    assert FormsMatch(forms, Candidates(JoinSep(q), Render(root), cwd)[0]);
    assert PatternHits(forms, JoinSep(q), Render(root), cwd);
  }

  /** An absolute pattern excludes the same entry when the entry is given
      relative to the working directory and the working directory is the
      root: both resolve to one absolute path. */
  lemma AbsolutePatternExcludesRelativePath(root: AbsPath, q: seq<string>, includeHidden: bool)
    requires AllValid(root.parts) && AllValid(q) && |q| > 0
    requires NoMeta(Render(AbsPath(root.parts + q)))
    ensures ShouldIgnore(JoinSep(q), [Render(AbsPath(root.parts + q))], Render(root), includeHidden, root)
  {
    var full := AbsPath(root.parts + q);
    var pat := Render(full);
    RenderRoundTrip(root, root);
    JoinSepHead(q);
    JoinBelow(root, q, root);
    var forms := PathForms(JoinSep(q), Render(root), root);
    assert forms.abs == pat;
    assert FormsMatch(forms, Candidates(pat, Render(root), root)[0]);
    assert PatternHits(forms, pat, Render(root), root);
  }

  /** A pattern written with a trailing separator, `name/`, matches no form of
      the directory `root/name` as written, but its absolute candidate is
      normalised to that directory, so the directory is excluded. */
  lemma TrailingSeparatorPatternExcludes(root: AbsPath, n: string, includeHidden: bool, cwd: AbsPath)
    requires AllValid(root.parts) && ValidName(n)
    requires NoMeta(Render(AbsPath(root.parts + [n])))
    ensures ShouldIgnore(Render(AbsPath(root.parts + [n])), [n + [Sep]], Render(root), includeHidden, cwd)
  {
    var dir := AbsPath(root.parts + [n]);
    var pat := n + [Sep];
    AllValidConcat(root.parts, [n]);
    RenderRoundTrip(dir, cwd);
    RenderRoundTrip(root, cwd);
    JoinRender(root, n);
    assert JoinPath(Render(root), pat) == JoinPath(Render(root), n) + [Sep];
    TrailingSepIgnored(dir, cwd);
    var cand := Render(AbsPathOf(JoinPath(Render(root), pat), cwd));
    assert cand == Render(dir);
    var forms := PathForms(Render(dir), Render(root), cwd);
    assert forms.abs == Render(dir);
    assert FormsMatch(forms, Candidates(pat, Render(root), cwd)[1]);
    assert PatternHits(forms, pat, Render(root), cwd);
  }
}

=== FILE: paths.dfy ===
/** POSIX path handling as Python's `posixpath` does it: splitting on `/`,
    joining, `basename`, `normpath`/`abspath` for absolute paths and `relpath`.
    A normalised absolute path is a sequence of components; its text form is
    `/` followed by the components joined with `/`. */
module Paths {
  import opened Wrappers

  const Sep: char := '/'

  /** `s.split('/')`: the pieces between separators, empty ones included, so
      there is always at least one piece. */
  function SplitSep(s: string): (parts: seq<string>)
    ensures |parts| >= 1
    ensures forall i :: 0 <= i < |parts| ==> Sep !in parts[i]
    decreases |s|
  {
    if |s| == 0 then [""]
    else if s[0] == Sep then [""] + SplitSep(s[1..])
    else
      var rest := SplitSep(s[1..]);
      [[s[0]] + rest[0]] + rest[1..]
  }

  /** `'/'.join(parts)`. */
  function JoinSep(parts: seq<string>): string
    decreases |parts|
  {
    if |parts| == 0 then ""
    else if |parts| == 1 then parts[0]
    else parts[0] + [Sep] + JoinSep(parts[1..])
  }

  /** `os.path.isabs`. */
  predicate IsAbs(s: string) {
    |s| > 0 && s[0] == Sep
  }

  /** `os.path.join(a, b)` for two arguments: an absolute `b` replaces `a`,
      otherwise a separator is inserted unless `a` is empty or already ends
      with one. */
  function JoinPath(a: string, b: string): (r: string)
    ensures IsAbs(b) ==> r == b
    ensures !IsAbs(b) ==> |a| <= |r| - |b| <= |a| + 1 && r[..|a|] == a && r[|r| - |b|..] == b
    ensures !IsAbs(b) && |a| > 0 ==> r[|r| - |b| - 1] == Sep
    ensures !IsAbs(b) && (|a| == 0 || a[|a| - 1] == Sep) ==> r == a + b
    ensures !IsAbs(b) && |a| > 0 && a[|a| - 1] != Sep ==> r == a + [Sep] + b
  {
    if IsAbs(b) then b
    else if |a| == 0 || a[|a| - 1] == Sep then a + b
    else a + [Sep] + b
  }

  /** `os.path.basename`: everything after the last separator. */
  function Basename(s: string): (r: string)
    ensures |r| <= |s| && r == s[|s| - |r|..]
    ensures Sep !in r
    ensures |r| < |s| ==> s[|s| - |r| - 1] == Sep
    decreases |s|
  {
    if |s| == 0 || s[|s| - 1] == Sep then ""
    else Basename(s[..|s| - 1]) + [s[|s| - 1]]
  }

  /** A directory-entry name: non-empty, without separator, not `.` or `..`. */
  predicate ValidName(n: string) {
    |n| > 0 && Sep !in n && n != "." && n != ".."
  }

  predicate AllValid(parts: seq<string>) {
    forall i :: 0 <= i < |parts| ==> ValidName(parts[i])
  }

  /** A normalised absolute path, as its components below `/`. */
  datatype AbsPath = AbsPath(parts: seq<string>)

  /** The text of an absolute path: `/` for the root, `/a/b` otherwise. */
  function Render(p: AbsPath): string {
    [Sep] + JoinSep(p.parts)
  }

  /** The component loop of `posixpath.normpath` for an absolute path: empty
      and `.` components vanish, `..` removes the previous component (and
      is dropped at the root), anything else is appended. */
  function Normalize(stack: seq<string>, comps: seq<string>): (r: seq<string>)
    ensures AllValid(stack) && (forall i :: 0 <= i < |comps| ==> Sep !in comps[i]) ==> AllValid(r)
    decreases |comps|
  {
    if |comps| == 0 then stack
    else if comps[0] == "" || comps[0] == "." then Normalize(stack, comps[1..])
    else if comps[0] == ".." then Normalize(if |stack| > 0 then stack[..|stack| - 1] else stack, comps[1..])
    else Normalize(stack + [comps[0]], comps[1..])
  }

  /** `os.path.abspath(s)` with the process's working directory `cwd`: a
      relative `s` is first joined under `cwd`, then the result is normalised. */
  function AbsPathOf(s: string, cwd: AbsPath): (r: AbsPath)
    ensures AllValid(r.parts)
  {
    var full := if IsAbs(s) then s else JoinPath(Render(cwd), s);
    AbsPath(Normalize([], SplitSep(full)))
  }

  /** The length of the longest common prefix of two component sequences. */
  function CommonPrefix(a: seq<string>, b: seq<string>): (n: nat)
    ensures n <= |a| && n <= |b| && a[..n] == b[..n]
    ensures n < |a| && n < |b| ==> a[n] != b[n]
    decreases |a|
  {
    if |a| == 0 || |b| == 0 || a[0] != b[0] then 0
    else
      var n := 1 + CommonPrefix(a[1..], b[1..]);
      assert a[..n] == [a[0]] + a[1..][..n - 1];
      assert b[..n] == [b[0]] + b[1..][..n - 1];
      n
  }

  /** The text of the relative path from the components `from` to the
      components `to`: one `..` for every component of `from` below their
      common prefix, then the rest of `to`; `.` when nothing is left. */
  function RelText(from: seq<string>, to: seq<string>): string {
    var i := CommonPrefix(from, to);
    var relList := seq(|from| - i, _ => "..") + to[i..];
    if |relList| == 0 then "." else JoinSep(relList)
  }

  /** `os.path.relpath(path, start)` on POSIX: both sides made absolute, then
      `RelText` between their components. The only `ValueError` it raises on
      POSIX is for an empty `path`: None. */
  function RelPath(path: string, start: string, cwd: AbsPath): (r: Option<string>)
    ensures r.None? <==> path == ""
  {
    if |path| == 0 then None
    else Some(RelText(AbsPathOf(start, cwd).parts, AbsPathOf(path, cwd).parts))
  }

  // ---------------------------------------------------------------------
  // Splitting and joining

  lemma {:induction false} SplitSepConcat(a: string, b: string)
    ensures SplitSep(a + [Sep] + b) == SplitSep(a) + SplitSep(b)
    decreases |a|
  {
    var s := a + [Sep] + b;
    if |a| == 0 {
      assert s == [Sep] + b;
      assert s[1..] == b;
    } else {
      assert s[0] == a[0];
      assert s[1..] == a[1..] + [Sep] + b;
      SplitSepConcat(a[1..], b);
    }
  }

  lemma {:induction false} SplitSepName(n: string)
    requires Sep !in n
    ensures SplitSep(n) == [n]
    decreases |n|
  {
    if |n| > 0 {
      SplitSepName(n[1..]);
      assert n == [n[0]] + n[1..];
    }
  }

  /** Splitting undoes joining when no part holds a separator. */
  lemma {:induction false} SplitJoin(parts: seq<string>)
    requires |parts| > 0
    requires forall i :: 0 <= i < |parts| ==> Sep !in parts[i]
    ensures SplitSep(JoinSep(parts)) == parts
    decreases |parts|
  {
    if |parts| == 1 {
      SplitSepName(parts[0]);
    } else {
      SplitSepName(parts[0]);
      SplitJoin(parts[1..]);
      SplitSepConcat(parts[0], JoinSep(parts[1..]));
    }
  }

  /** Joining undoes splitting, for every string. */
  lemma {:induction false} JoinSplit(s: string)
    ensures JoinSep(SplitSep(s)) == s
    decreases |s|
  {
    if |s| > 0 {
      JoinSplit(s[1..]);
      var rest := SplitSep(s[1..]);
      if s[0] == Sep {
        assert ([""] + rest)[1..] == rest;
        assert s == [Sep] + s[1..];
      } else {
        var parts := [[s[0]] + rest[0]] + rest[1..];
        if |rest| > 1 {
          assert parts[1..] == rest[1..];
          assert JoinSep(rest) == rest[0] + [Sep] + JoinSep(rest[1..]);
        }
        assert s == [s[0]] + s[1..];
      }
    }
  }

  lemma {:induction false} JoinSepSnoc(parts: seq<string>, n: string)
    requires |parts| > 0
    ensures JoinSep(parts + [n]) == JoinSep(parts) + [Sep] + n
    decreases |parts|
  {
    assert (parts + [n])[0] == parts[0];
    assert (parts + [n])[1..] == parts[1..] + [n];
    if |parts| > 1 {
      JoinSepSnoc(parts[1..], n);
    }
  }

  lemma {:induction false} JoinSepConcat(a: seq<string>, b: seq<string>)
    requires |a| > 0 && |b| > 0
    ensures JoinSep(a + b) == JoinSep(a) + [Sep] + JoinSep(b)
    decreases |a|
  {
    assert (a + b)[0] == a[0];
    assert (a + b)[1..] == a[1..] + b;
    if |a| > 1 {
      JoinSepConcat(a[1..], b);
    }
  }

  lemma JoinSepEndsWithLast(parts: seq<string>)
    requires |parts| > 0 && |parts[|parts| - 1]| > 0
    ensures |JoinSep(parts)| > 0
    ensures JoinSep(parts)[|JoinSep(parts)| - 1] == parts[|parts| - 1][|parts[|parts| - 1]| - 1]
  {
    if |parts| > 1 {
      var front := parts[..|parts| - 1];
      assert parts == front + [parts[|parts| - 1]];
      JoinSepSnoc(front, parts[|parts| - 1]);
    }
  }

  // ---------------------------------------------------------------------
  // Normalisation and the text form of an absolute path

  /** Normalising components that are already valid names just appends them. */
  lemma {:induction false} NormalizeValid(stack: seq<string>, comps: seq<string>)
    requires AllValid(comps)
    ensures Normalize(stack, comps) == stack + comps
    decreases |comps|
  {
    if |comps| > 0 {
      NormalizeValid(stack + [comps[0]], comps[1..]);
      assert stack + [comps[0]] + comps[1..] == stack + comps;
    }
  }

  /** Normalisation is a left-to-right fold: a split of the components can be
      normalised piece by piece. */
  lemma {:induction false} NormalizeConcat(stack: seq<string>, a: seq<string>, b: seq<string>)
    ensures Normalize(stack, a + b) == Normalize(Normalize(stack, a), b)
    decreases |a|
  {
    if |a| > 0 {
      assert (a + b)[0] == a[0];
      assert (a + b)[1..] == a[1..] + b;
      var next := if a[0] == "" || a[0] == "." then stack
                  else if a[0] == ".." then (if |stack| > 0 then stack[..|stack| - 1] else stack)
                  else stack + [a[0]];
      NormalizeConcat(next, a[1..], b);
    } else {
      assert a + b == b;
    }
  }

  /** The components of the text `Render(p)`, as `str.split('/')` yields them. */
  lemma SplitRender(p: AbsPath)
    requires AllValid(p.parts)
    ensures SplitSep(Render(p)) == [""] + (if |p.parts| == 0 then [""] else p.parts)
  {
    SplitSepConcat("", JoinSep(p.parts));
    assert "" + [Sep] + JoinSep(p.parts) == Render(p);
    if |p.parts| > 0 {
      SplitJoin(p.parts);
    }
  }

  /** `abspath` of the text of a normalised absolute path gives the path back,
      whatever the working directory. */
  lemma RenderRoundTrip(p: AbsPath, cwd: AbsPath)
    requires AllValid(p.parts)
    ensures AbsPathOf(Render(p), cwd) == p
  {
    SplitRender(p);
    assert IsAbs(Render(p));
    assert AbsPathOf(Render(p), cwd) == AbsPath(Normalize([], SplitSep(Render(p))));
    if |p.parts| > 0 {
      var comps := [""] + p.parts;
      assert SplitSep(Render(p)) == comps;
      assert comps[0] == "" && comps[1..] == p.parts;
      assert Normalize([], comps) == Normalize([], p.parts);
      NormalizeValid([], p.parts);
      assert [] + p.parts == p.parts;
    } else {
      assert SplitSep(Render(p)) == ["", ""];
      assert ["", ""][1..] == [""];
      assert Normalize([], [""]) == Normalize([], []);
    }
  }

  /** Distinct normalised paths have distinct texts. */
  lemma RenderInjective(p: AbsPath, q: AbsPath)
    requires AllValid(p.parts) && AllValid(q.parts)
    requires Render(p) == Render(q)
    ensures p == q
  {
    RenderRoundTrip(p, p);
    RenderRoundTrip(q, p);
  }

  /** `os.path.join(dirpath, name)` for a directory's text and an entry name
      is the text of the path one level down. */
  lemma JoinRender(p: AbsPath, n: string)
    requires AllValid(p.parts) && ValidName(n)
    ensures JoinPath(Render(p), n) == Render(AbsPath(p.parts + [n]))
  {
    if |p.parts| == 0 {
      assert p.parts + [n] == [n];
    } else {
      JoinSepEndsWithLast(p.parts);
      JoinSepSnoc(p.parts, n);
    }
  }

  /** The basename of a path's text is its last component. */
  lemma BasenameRender(p: AbsPath)
    requires AllValid(p.parts) && |p.parts| > 0
    ensures Basename(Render(p)) == p.parts[|p.parts| - 1]
  {
    var n := p.parts[|p.parts| - 1];
    if |p.parts| > 1 {
      var front := p.parts[..|p.parts| - 1];
      assert p.parts == front + [n];
      JoinSepSnoc(front, n);
      assert Render(p) == ([Sep] + JoinSep(front)) + [Sep] + n;
      BasenameAfterSep([Sep] + JoinSep(front), n);
    } else {
      BasenameAfterSep("", n);
    }
  }

  /** The basename of `a/n` is `n` when `n` holds no separator. */
  lemma {:induction false} BasenameAfterSep(a: string, n: string)
    requires Sep !in n
    ensures Basename(a + [Sep] + n) == n
    decreases |n|
  {
    var s := a + [Sep] + n;
    if |n| > 0 {
      var n' := n[..|n| - 1];
      assert s[..|s| - 1] == a + [Sep] + n';
      BasenameAfterSep(a, n');
      assert n == n' + [n[|n| - 1]];
    }
  }

  // ---------------------------------------------------------------------
  // relpath and join below a root

  /** The path `root/q` relative to `root` is `q` (`.` when `q` is empty). */
  lemma RelPathBelow(root: AbsPath, q: seq<string>, cwd: AbsPath)
    requires AllValid(root.parts) && AllValid(q)
    ensures RelPath(Render(AbsPath(root.parts + q)), Render(root), cwd)
            == Some(if |q| == 0 then "." else JoinSep(q))
  {
    var full := AbsPath(root.parts + q);
    AllValidConcat(root.parts, q);
    RenderRoundTrip(full, cwd);
    RenderRoundTrip(root, cwd);
    RelTextBelow(root.parts, q);
  }

  lemma RelTextBelow(root: seq<string>, q: seq<string>)
    ensures RelText(root, root + q) == if |q| == 0 then "." else JoinSep(q)
  {
    var i := CommonPrefix(root, root + q);
    assert forall k :: 0 <= k < |root| ==> (root + q)[k] == root[k];
    assert i == |root|;
    assert (root + q)[i..] == q;
    var relList := seq(|root| - i, _ => "..") + (root + q)[i..];
    assert relList == q;
  }

  lemma AllValidConcat(a: seq<string>, b: seq<string>)
    requires AllValid(a) && AllValid(b)
    ensures AllValid(a + b)
  {
    forall i | 0 <= i < |a + b| ensures ValidName((a + b)[i]) {
      if i < |a| {
        assert (a + b)[i] == a[i];
      } else {
        assert (a + b)[i] == b[i - |a|];
      }
    }
  }

  /** `abspath(join(root, q))` for a relative `q` made of names is `root/q`. */
  lemma JoinBelow(root: AbsPath, q: seq<string>, cwd: AbsPath)
    requires AllValid(root.parts) && AllValid(q) && |q| > 0
    ensures AbsPathOf(JoinPath(Render(root), JoinSep(q)), cwd) == AbsPath(root.parts + q)
  {
    var full := AbsPath(root.parts + q);
    AllValidConcat(root.parts, q);
    JoinSepHead(q);
    JoinPathRender(root, q);
    RenderRoundTrip(full, cwd);
  }

  lemma JoinSepHead(q: seq<string>)
    requires |q| > 0 && ValidName(q[0])
    ensures !IsAbs(JoinSep(q))
  {
    assert JoinSep(q)[0] == q[0][0];
  }

  lemma JoinPathRender(root: AbsPath, q: seq<string>)
    requires AllValid(root.parts) && |q| > 0 && !IsAbs(JoinSep(q))
    requires |q[|q| - 1]| > 0
    ensures JoinPath(Render(root), JoinSep(q)) == Render(AbsPath(root.parts + q))
  {
    if |root.parts| == 0 {
      assert root.parts + q == q;
    } else {
      JoinSepEndsWithLast(root.parts);
      JoinSepConcat(root.parts, q);
    }
  }

  /** A trailing separator does not change what a path normalises to. */
  lemma TrailingSepIgnored(p: AbsPath, cwd: AbsPath)
    requires AllValid(p.parts)
    ensures AbsPathOf(Render(p) + [Sep], cwd) == p
  {
    var s := Render(p) + [Sep];
    assert s == Render(p) + [Sep] + "";
    SplitSepConcat(Render(p), "");
    NormalizeConcat([], SplitSep(Render(p)), [""]);
    RenderRoundTrip(p, cwd);
    assert IsAbs(Render(p));
    assert AbsPathOf(Render(p), cwd).parts == Normalize([], SplitSep(Render(p)));
    assert [""][1..] == [];
  }
}

=== FILE: scenario.dfy ===
/** The two-file tree used to illustrate `count_loc`: `/r/a.py` with two
    code lines, a blank line and a comment line, and `/r/sub/b.py` with one
    code line. */
module Scenario {
  import opened Wrappers
  import opened Strings
  import opened Paths
  import opened Ignore
  import opened Glob
  import opened Classifier
  import opened Walker
  import opened Counter

  const A: seq<string> := ["x = 1\n", "\n", "# note\n", "y = 2\n"]
  const B: seq<string> := ["z = 3\n"]
  const Cwd: AbsPath := AbsPath([])

  function Tree(): Node {
    Dir("", [Dir("r", [File("a.py", Some(A)), Dir("sub", [File("b.py", Some(B))])])])
  }

  lemma CountOne(l: string, keep: string -> bool)
    ensures CountWhere([l], keep) == if keep(l) then 1 else 0
  {
    assert [l][..0] == [];
  }

  /** Counting four lines is classifying each of them. */
  lemma CountFour(a: string, b: string, c: string, d: string, keep: string -> bool)
    ensures CountWhere([a, b, c, d], keep)
         == (if keep(a) then 1 else 0) + (if keep(b) then 1 else 0)
          + (if keep(c) then 1 else 0) + (if keep(d) then 1 else 0)
  {
    CountOne(a, keep);
    CountOne(b, keep);
    CountOne(c, keep);
    CountOne(d, keep);
    CountWhereAppend([a], [b], keep);
    CountWhereAppend([a, b], [c], keep);
    CountWhereAppend([a, b, c], [d], keep);
    assert [a] + [b] == [a, b];
    assert [a, b] + [c] == [a, b, c];
    assert [a, b, c] + [d] == [a, b, c, d];
  }

  lemma ALine0()
    ensures IsCodeLine(A[0])
  {
    LeadingCodeCharIsCode(A[0]);
  }

  lemma ALine1()
    ensures !IsCodeLine(A[1])
  {
    assert AllSpace(A[1]);
    BlankLineIsNotCode(A[1]);
  }

  lemma ALine2()
    ensures !IsCodeLine(A[2])
  {
    assert A[2][..0] == [];
    CommentLineIsNotCode(A[2], 0);
  }

  lemma ALine3()
    ensures IsCodeLine(A[3])
  {
    LeadingCodeCharIsCode(A[3]);
  }

  lemma ACount()
    ensures CountCodeLines(A) == 2
  {
    ALine0();
    ALine1();
    ALine2();
    ALine3();
    CountFour(A[0], A[1], A[2], A[3], IsCodeLine);
    assert [A[0], A[1], A[2], A[3]] == A;
  }

  lemma BCount()
    ensures CountCodeLines(B) == 1
  {
    LeadingCodeCharIsCode(B[0]);
    CountOne(B[0], IsCodeLine);
  }

  /** With no patterns and hidden entries excluded, a path under the root is
      ignored only when its last name starts with a dot. */
  lemma NotIgnored(p: seq<string>)
    requires AllValid(p) && |p| > 0 && p[|p| - 1][0] != '.'
    ensures !IgnoreTest(ScanOf("/r", [], false, Cwd))(p)
  {
    BasenameRender(AbsPath(p));
  }

  lemma RootResolves()
    ensures AbsPathOf("/r", Cwd) == AbsPath(["r"])
  {
    RenderRoundTrip(AbsPath(["r"]), Cwd);
  }

  /** The walk of `/r` under any test that ignores none of its entries. */
  lemma RootWalk(ignored: seq<string> -> bool)
    requires !ignored(["r", "a.py"]) && !ignored(["r", "sub"]) && !ignored(["r", "sub", "b.py"])
    ensures WalkDir(Tree().children[0].children, ["r"], ignored) == [["r", "a.py"], ["r", "sub", "b.py"]]
  {
    var rc := Tree().children[0].children;
    var sc := rc[1].children;
    assert EndsWith("a.py", PySuffix) && EndsWith("b.py", PySuffix);
    assert ["r", "sub"] + ["b.py"] == ["r", "sub", "b.py"];
    assert ["r"] + ["a.py"] == ["r", "a.py"];
    assert ["r"] + ["sub"] == ["r", "sub"];
    assert sc[1..] == [] && rc[1..][1..] == [];
    assert FilesIn(sc, ["r", "sub"], ignored) == [["r", "sub", "b.py"]];
    assert SubdirsIn(sc, ["r", "sub"], ignored) == [];
    assert WalkDir(sc, ["r", "sub"], ignored) == [["r", "sub", "b.py"]];
    assert FilesIn(rc[1..], ["r"], ignored) == [];
    assert FilesIn(rc, ["r"], ignored) == [["r", "a.py"]];
    assert SubdirsIn(rc[1..], ["r"], ignored) == [["r", "sub", "b.py"]];
    assert SubdirsIn(rc, ["r"], ignored) == [["r", "sub", "b.py"]];
  }

  /** With no patterns, both files are walked, the root's own file first. */
  lemma ScenarioPaths()
    ensures PythonFilePaths(Tree(), "/r", [], false, Cwd) == [["r", "a.py"], ["r", "sub", "b.py"]]
  {
    RootResolves();
    assert AbsPathOf("/r", Cwd).parts == ["r"];
    assert Lookup(Tree(), ["r"]) == Some(Tree().children[0]);
    NotIgnored(["r", "a.py"]);
    NotIgnored(["r", "sub"]);
    NotIgnored(["r", "sub", "b.py"]);
    RootWalk(IgnoreTest(ScanOf("/r", [], false, Cwd)));
    assert Lookup(Tree(), ["r"]) == Some(Tree().children[0]);
  }

  lemma RenderFiles()
    ensures Render(AbsPath(["r", "a.py"])) == "/r/a.py"
    ensures Render(AbsPath(["r", "sub", "b.py"])) == "/r/sub/b.py"
  {
  }

  /** `iter_python_files("/r")` with no patterns. */
  lemma ScenarioFiles()
    ensures IterPythonFiles(Tree(), "/r", [], false, Cwd) == ["/r/a.py", "/r/sub/b.py"]
  {
    ScenarioPaths();
    RenderFiles();
  }

  lemma ACountLoc()
    ensures CountFileLoc(Tree(), "/r/a.py", Cwd) == 2
  {
    RenderFiles();
    RenderRoundTrip(AbsPath(["r", "a.py"]), Cwd);
    assert AbsPathOf("/r/a.py", Cwd).parts == ["r", "a.py"];
    assert Lookup(Tree(), ["r", "a.py"]) == Some(File("a.py", Some(A)));
    assert ReadLines(Tree(), "/r/a.py", Cwd) == Some(A);
    ACount();
  }

  lemma BCountLoc()
    ensures CountFileLoc(Tree(), "/r/sub/b.py", Cwd) == 1
  {
    RenderFiles();
    RenderRoundTrip(AbsPath(["r", "sub", "b.py"]), Cwd);
    assert AbsPathOf("/r/sub/b.py", Cwd).parts == ["r", "sub", "b.py"];
    var rc := Tree().children[0].children;
    var sc := rc[1].children;
    assert LookupIn(sc, ["b.py"]) == Some(File("b.py", Some(B)));
    assert ["r", "sub", "b.py"][1..] == ["sub", "b.py"] && ["sub", "b.py"][1..] == ["b.py"];
    assert LookupIn(rc, ["sub", "b.py"]) == LookupIn(sc, ["b.py"]);
    assert Lookup(Tree(), ["r", "sub", "b.py"]) == Some(File("b.py", Some(B)));
    assert ReadLines(Tree(), "/r/sub/b.py", Cwd) == Some(B);
    BCount();
  }

  /** Folding two distinct files. */
  lemma AccumulateTwo(p: string, q: string, loc: string -> nat)
    requires p != q
    ensures Accumulate([p, q], loc, true) == Tally(map[p := loc(p), q := loc(q)], loc(p) + loc(q))
  {
    assert [p, q][..1] == [p];
    assert [p][..0] == [];
    assert Accumulate([p], loc, true) == Tally(map[][p := loc(p)], loc(p));
    assert map[][p := loc(p)][q := loc(q)] == map[p := loc(p), q := loc(q)];
  }

  /** `count_loc("/r", per_file=True)` with no patterns and hidden entries
      excluded: both files, counted 2 and 1, total 3. */
  lemma ScenarioCountLoc()
    ensures CountLoc(Tree(), "/r", true, [], false, Cwd) == PerFile(map["/r/a.py" := 2, "/r/sub/b.py" := 1], 3)
  {
    ScenarioFiles();
    ACountLoc();
    BCountLoc();
    AccumulateTwo("/r/a.py", "/r/sub/b.py", FileLoc(Tree(), Cwd));
  }

  // ---------------------------------------------------------------------
  // The same tree with the pattern `sub`

  /** The pattern `sub` names the directory `/r/sub` relative to the root. */
  lemma SubIgnored()
    ensures IgnoreTest(ScanOf("/r", ["sub"], false, Cwd))(["r", "sub"])
  {
    RootResolves();
    assert Render(AbsPath(["r"])) == "/r";
    assert ["r"] + ["sub"] == ["r", "sub"];
    assert JoinSep(["sub"]) == "sub";
    RelativePatternExcludes(AbsPath(["r"]), ["sub"], false, Cwd);
  }

  lemma AForms()
    ensures PathForms("/r/a.py", "/r", Cwd) == Forms("a.py", "/r/a.py", "a.py")
  {
    RenderFiles();
    var root := AbsPath(["r"]);
    assert Render(root) == "/r";
    RenderRoundTrip(AbsPath(["r", "a.py"]), Cwd);
    assert ["r"] + ["a.py"] == ["r", "a.py"];
    RelPathBelow(root, ["a.py"], Cwd);
    BasenameRender(AbsPath(["r", "a.py"]));
  }

  lemma SubCandidates()
    ensures Candidates("sub", "/r", Cwd) == ["sub", "/r/sub"]
  {
    var root := AbsPath(["r"]);
    assert Render(root) == "/r";
    JoinRender(root, "sub");
    assert ["r"] + ["sub"] == ["r", "sub"];
    RenderRoundTrip(AbsPath(["r", "sub"]), Cwd);
    assert Render(AbsPath(["r", "sub"])) == "/r/sub";
  }

  lemma ANoHit()
    ensures !PatternHits(Forms("a.py", "/r/a.py", "a.py"), "sub", "/r", Cwd)
  {
    SubCandidates();
    var forms := Forms("a.py", "/r/a.py", "a.py");
    assert !FormsMatch(forms, "sub") && !FormsMatch(forms, "/r/sub");
    assert ["sub", "/r/sub"][1..] == ["/r/sub"];
  }

  /** A visible path is kept by a single pattern that hits none of its
      forms. */
  lemma KeptBy(p: seq<string>, pat: string, root: string, forms: Forms)
    requires PathForms(Render(AbsPath(p)), Render(AbsPathOf(root, Cwd)), Cwd) == forms
    requires !IsHidden(Basename(Render(AbsPath(p))))
    requires !PatternHits(forms, pat, Render(AbsPathOf(root, Cwd)), Cwd)
    ensures !IgnoreTest(ScanOf(root, [pat], false, Cwd))(p)
  {
    var rootAbs := Render(AbsPathOf(root, Cwd));
    RenderRoundTrip(AbsPathOf(root, Cwd), Cwd);
    assert Render(AbsPathOf(rootAbs, Cwd)) == rootAbs;
    assert !AnyPatternHits(forms, [pat], rootAbs, Cwd);
  }

  /** None of the forms of `/r/a.py` spells either candidate of `sub`. */
  lemma APyNotIgnoredBySub()
    ensures !IgnoreTest(ScanOf("/r", ["sub"], false, Cwd))(["r", "a.py"])
  {
    RootResolves();
    RenderFiles();
    AForms();
    ANoHit();
    BasenameRender(AbsPath(["r", "a.py"]));
    assert Render(AbsPath(["r"])) == "/r";
    assert Render(AbsPathOf("/r", Cwd)) == "/r";
    assert PathForms(Render(AbsPath(["r", "a.py"])), Render(AbsPathOf("/r", Cwd)), Cwd) == Forms("a.py", "/r/a.py", "a.py");
    assert !IsHidden(Basename(Render(AbsPath(["r", "a.py"]))));
    KeptBy(["r", "a.py"], "sub", "/r", Forms("a.py", "/r/a.py", "a.py"));
  }

  /** The walk of `/r` when `sub` is pruned and `a.py` is kept. */
  lemma RootWalkPruned(ignored: seq<string> -> bool)
    requires !ignored(["r", "a.py"]) && ignored(["r", "sub"])
    ensures WalkDir(Tree().children[0].children, ["r"], ignored) == [["r", "a.py"]]
  {
    var rc := Tree().children[0].children;
    assert EndsWith("a.py", PySuffix);
    assert ["r"] + ["a.py"] == ["r", "a.py"];
    assert ["r"] + ["sub"] == ["r", "sub"];
    assert rc[1..][1..] == [];
    assert FilesIn(rc[1..], ["r"], ignored) == [];
    assert FilesIn(rc, ["r"], ignored) == [["r", "a.py"]];
    assert SubdirsIn(rc[1..], ["r"], ignored) == [];
    assert SubdirsIn(rc, ["r"], ignored) == [];
  }

  lemma PrunedFiles()
    ensures IterPythonFiles(Tree(), "/r", ["sub"], false, Cwd) == ["/r/a.py"]
  {
    PrunedPaths();
    RenderFiles();
  }

  lemma PrunedPaths()
    ensures PythonFilePaths(Tree(), "/r", ["sub"], false, Cwd) == [["r", "a.py"]]
  {
    RootResolves();
    assert AbsPathOf("/r", Cwd).parts == ["r"];
    assert Lookup(Tree(), ["r"]) == Some(Tree().children[0]);
    SubIgnored();
    APyNotIgnoredBySub();
    RootWalkPruned(IgnoreTest(ScanOf("/r", ["sub"], false, Cwd)));
  }

  /** `count_loc("/r", per_file=True, ["sub"])`: the whole `sub` directory is
      pruned, so only `a.py` is counted. */
  lemma ScenarioPrunedCountLoc()
    ensures CountLoc(Tree(), "/r", true, ["sub"], false, Cwd) == PerFile(map["/r/a.py" := 2], 2)
  {
    PrunedFiles();
    ACountLoc();
    var loc := FileLoc(Tree(), Cwd);
    assert ["/r/a.py"][..0] == [];
    assert Accumulate(["/r/a.py"], loc, true) == Tally(map[]["/r/a.py" := 2], 2);
  }
}

=== FILE: strings.dfy ===
/** Text helpers with the meaning Python gives them: `str.isspace`,
    `str.strip`, and `str.split(sep, 1)[0]`. */
module Strings {

  /** The characters for which Python's `str.isspace` holds: the ASCII
      controls TAB..CR and FS..US, SPACE, NEL, NO-BREAK SPACE, and the Unicode
      space separators and line/paragraph separators. */
  const Whitespace: set<char> := {
    '\t', '\n', '\U{B}', '\U{C}', '\r',
    '\U{1C}', '\U{1D}', '\U{1E}', '\U{1F}', ' ',
    '\U{85}', '\U{A0}', '\U{1680}',
    '\U{2000}', '\U{2001}', '\U{2002}', '\U{2003}', '\U{2004}', '\U{2005}',
    '\U{2006}', '\U{2007}', '\U{2008}', '\U{2009}', '\U{200A}',
    '\U{2028}', '\U{2029}', '\U{202F}', '\U{205F}', '\U{3000}'
  }

  predicate IsSpace(c: char) {
    c in Whitespace
  }

  predicate AllSpace(s: string) {
    forall i :: 0 <= i < |s| ==> IsSpace(s[i])
  }

  /** `s.lstrip()`: the longest suffix of `s` that does not start with whitespace. */
  function LStrip(s: string): (r: string)
    ensures |r| <= |s| && r == s[|s| - |r|..]
    ensures AllSpace(s[..|s| - |r|])
    ensures |r| > 0 ==> !IsSpace(r[0])
    decreases |s|
  {
    if |s| > 0 && IsSpace(s[0]) then LStrip(s[1..]) else s
  }

  /** `s.rstrip()`: the longest prefix of `s` that does not end with whitespace. */
  function RStrip(s: string): (r: string)
    ensures |r| <= |s| && r == s[..|r|]
    ensures AllSpace(s[|r|..])
    ensures |r| > 0 ==> !IsSpace(r[|r| - 1])
    decreases |s|
  {
    if |s| > 0 && IsSpace(s[|s| - 1]) then RStrip(s[..|s| - 1]) else s
  }

  /** `r` occurs in `s` at index `i`, with only whitespace before and after it. */
  predicate PaddedAt(s: string, i: int, r: string) {
    0 <= i && i + |r| <= |s| && s[i..i + |r|] == r && AllSpace(s[..i]) && AllSpace(s[i + |r|..])
  }

  /** `s.strip()`: whitespace removed from both ends. */
  function Strip(s: string): (r: string)
    ensures exists i :: PaddedAt(s, i, r)
    ensures |r| == 0 <==> AllSpace(s)
    ensures |r| > 0 ==> !IsSpace(r[0]) && !IsSpace(r[|r| - 1])
  {
    StripEnds(s);
    StripPadded(s);
    RStrip(LStrip(s))
  }

  /** Stripping both ends leaves nothing exactly for an all-whitespace
      string, and otherwise ends on non-whitespace at both sides. */
  lemma StripEnds(s: string)
    ensures var r := RStrip(LStrip(s));
            && (|r| == 0 <==> AllSpace(s))
            && (|r| > 0 ==> !IsSpace(r[0]) && !IsSpace(r[|r| - 1]))
  {
    var l := LStrip(s);
    var r := RStrip(l);
    var i := |s| - |l|;
    if |r| == 0 {
      assert s[..i] == s;
    } else {
      assert r[0] == l[0] && l[0] == s[i];
    }
  }

  /** Stripping both ends leaves a slice of `s` with only whitespace around it. */
  lemma StripPadded(s: string)
    ensures exists i :: PaddedAt(s, i, RStrip(LStrip(s)))
  {
    var l := LStrip(s);
    var r := RStrip(l);
    var i := |s| - |l|;
    assert r == s[i..i + |r|] && s[i + |r|..] == l[|r|..];
    assert PaddedAt(s, i, r);
  }

  /** `s.split(c, 1)[0]`: everything before the first occurrence of `c`,
      or all of `s` when `c` does not occur. */
  function BeforeFirst(s: string, c: char): (r: string)
    ensures |r| <= |s| && r == s[..|r|]
    ensures c !in r
    ensures |r| < |s| ==> s[|r|] == c
  {
    if |s| == 0 || s[0] == c then "" else [s[0]] + BeforeFirst(s[1..], c)
  }

  predicate EndsWith(s: string, suffix: string) {
    |suffix| <= |s| && s[|s| - |suffix|..] == suffix
  }
}

=== FILE: walker.dfy ===
/** `iter_python_files`: a top-down walk of a directory tree that prunes
    ignored directories before descending and yields the Python files that are
    not ignored. The filesystem is an immutable tree; a path is the sequence of
    component names below `/`. */
module Walker {
  import opened Wrappers
  import opened Strings
  import opened Paths
  import opened Ignore

  /** A filesystem entry: a file with its lines (None when it cannot be
      read), or a directory with its entries in listing order. */
  datatype Node =
    | File(name: string, lines: Option<seq<string>>)
    | Dir(name: string, children: seq<Node>)

  /** The suffix a file name needs to be counted. */
  const PySuffix: string := ".py"

  /** The settings every `should_ignore` call of one walk shares; `root` is
      already the absolute root text. */
  datatype Scan = Scan(patterns: seq<string>, root: string, includeHidden: bool, cwd: AbsPath)

  /** The test the walk applies to an entry's path: `should_ignore` on the
      path's text with the scan's settings. The walk itself is written for
      any such test. */
  function IgnoreTest(scan: Scan): seq<string> -> bool {
    p => ShouldIgnore(Render(AbsPath(p)), scan.patterns, scan.root, scan.includeHidden, scan.cwd)
  }

  /** The scan settings `iter_python_files` uses for `root`: patterns and
      hidden policy as given, the root made absolute. */
  function ScanOf(root: string, patterns: seq<string>, includeHidden: bool, cwd: AbsPath): Scan {
    Scan(patterns, Render(AbsPathOf(root, cwd)), includeHidden, cwd)
  }

  // ---------------------------------------------------------------------
  // Looking entries up

  /** The index of the first entry called `name`. */
  function FindChild(children: seq<Node>, name: string): (r: Option<nat>)
    ensures r.Some? ==> r.value < |children| && children[r.value].name == name
    ensures r.Some? ==> forall j :: 0 <= j < r.value ==> children[j].name != name
    ensures r.None? ==> forall j :: 0 <= j < |children| ==> children[j].name != name
  {
    if |children| == 0 then None
    else if children[0].name == name then Some(0)
    else match FindChild(children[1..], name)
      case None => None
      case Some(i) => Some(i + 1)
  }

  /** The entry reached from a directory with entries `children` by following
      the non-empty component sequence `q`. */
  function LookupIn(children: seq<Node>, q: seq<string>): Option<Node>
    requires |q| > 0
    decreases |q|
  {
    match FindChild(children, q[0])
    case None => None
    case Some(i) =>
      if |q| == 1 then Some(children[i])
      else match children[i]
        case File(_, _) => None
        case Dir(_, ch) => LookupIn(ch, q[1..])
  }

  /** The entry at path `parts` below the node `fs` (the root directory `/`). */
  function Lookup(fs: Node, parts: seq<string>): Option<Node> {
    if |parts| == 0 then Some(fs)
    else match fs
      case File(_, _) => None
      case Dir(_, children) => LookupIn(children, parts)
  }

  /** Names in one directory are distinct, valid, and so on all the way down:
      what every real directory tree satisfies. */
  predicate WellFormed(children: seq<Node>) {
    && (forall i, j :: 0 <= i < j < |children| ==> children[i].name != children[j].name)
    && (forall i :: 0 <= i < |children| ==> ValidName(children[i].name))
    && (forall i :: 0 <= i < |children| && children[i].Dir? ==> WellFormed(children[i].children))
  }

  // ---------------------------------------------------------------------
  // The walk

  /** The files of one directory that are yielded, in listing order. */
  function FilesIn(children: seq<Node>, dir: seq<string>, ignored: seq<string> -> bool): seq<seq<string>> {
    if |children| == 0 then []
    else
      var c := children[0];
      var here := if c.File? && !ignored(dir + [c.name]) && EndsWith(c.name, PySuffix)
                  then [dir + [c.name]] else [];
      here + FilesIn(children[1..], dir, ignored)
  }

  /** What `os.walk` and the generator's loop produce for the directory
      `dir` with entries `children`: its files first, then the walk of every
      subdirectory that is not ignored. Ignored subdirectories are never
      entered. */
  function WalkDir(children: seq<Node>, dir: seq<string>, ignored: seq<string> -> bool): (r: seq<seq<string>>)
    ensures FilesIn(children, dir, ignored) <= r
    decreases children, 1
  {
    FilesIn(children, dir, ignored) + SubdirsIn(children, dir, ignored)
  }

  function SubdirsIn(children: seq<Node>, dir: seq<string>, ignored: seq<string> -> bool): seq<seq<string>>
    decreases children, 0
  {
    if |children| == 0 then []
    else
      var c := children[0];
      var below := match c
        case Dir(name, ch) => if ignored(dir + [name]) then [] else WalkDir(ch, dir + [name], ignored)
        case File(_, _) => [];
      below + SubdirsIn(children[1..], dir, ignored)
  }

  /** The component paths `iter_python_files(root, patterns, include_hidden)`
      yields. A root that is missing or is not a directory yields nothing, as
      `os.walk` does. */
  function PythonFilePaths(fs: Node, root: string, patterns: seq<string>, includeHidden: bool, cwd: AbsPath): (r: seq<seq<string>>)
    ensures !(Lookup(fs, AbsPathOf(root, cwd).parts).Some? && Lookup(fs, AbsPathOf(root, cwd).parts).value.Dir?) ==> r == []
  {
    var rootAbs := AbsPathOf(root, cwd);
    match Lookup(fs, rootAbs.parts)
    case Some(Dir(_, children)) => WalkDir(children, rootAbs.parts, IgnoreTest(ScanOf(root, patterns, includeHidden, cwd)))
    case _ => []
  }

  /** `iter_python_files`: the texts of the yielded paths. */
  function IterPythonFiles(fs: Node, root: string, patterns: seq<string>, includeHidden: bool, cwd: AbsPath): (r: seq<string>)
    ensures |r| == |PythonFilePaths(fs, root, patterns, includeHidden, cwd)|
    ensures forall i :: 0 <= i < |r| ==> r[i] == Render(AbsPath(PythonFilePaths(fs, root, patterns, includeHidden, cwd)[i]))
  {
    var ps := PythonFilePaths(fs, root, patterns, includeHidden, cwd);
    seq(|ps|, i requires 0 <= i < |ps| => Render(AbsPath(ps[i])))
  }

  // ---------------------------------------------------------------------
  // What the walk yields

  /** The path `p` is yielded by the walk of directory `dir` (entries
      `children`): it lies strictly below `dir`, names a file there, ends in
      the Python suffix, and neither it nor any directory between `dir` and it
      is ignored. */
  predicate Yields(children: seq<Node>, dir: seq<string>, ignored: seq<string> -> bool, p: seq<string>) {
    && |p| > |dir| && p[..|dir|] == dir
    && LookupIn(children, p[|dir|..]).Some?
    && LookupIn(children, p[|dir|..]).value.File?
    && EndsWith(p[|p| - 1], PySuffix)
    && forall k :: |dir| < k <= |p| ==> !ignored(p[..k])
  }

  predicate NoDup<T(==)>(s: seq<T>) {
    forall i, j :: 0 <= i < j < |s| ==> s[i] != s[j]
  }

  lemma {:induction false} FilesInMember(children: seq<Node>, dir: seq<string>, ignored: seq<string> -> bool, p: seq<string>) returns (i: nat)
    requires p in FilesIn(children, dir, ignored)
    ensures i < |children| && children[i].File? && p == dir + [children[i].name]
    ensures !ignored(p) && EndsWith(children[i].name, PySuffix)
    decreases |children|
  {
    var c := children[0];
    if c.File? && !ignored(dir + [c.name]) && EndsWith(c.name, PySuffix) && p == dir + [c.name] {
      i := 0;
    } else {
      var j := FilesInMember(children[1..], dir, ignored, p);
      i := j + 1;
    }
  }

  lemma {:induction false} FilesInHas(children: seq<Node>, dir: seq<string>, ignored: seq<string> -> bool, i: nat)
    requires i < |children| && children[i].File?
    requires !ignored(dir + [children[i].name]) && EndsWith(children[i].name, PySuffix)
    ensures dir + [children[i].name] in FilesIn(children, dir, ignored)
    decreases |children|
  {
    if i > 0 {
      FilesInHas(children[1..], dir, ignored, i - 1);
    }
  }

  lemma {:induction false} SubdirsInMember(children: seq<Node>, dir: seq<string>, ignored: seq<string> -> bool, p: seq<string>) returns (i: nat)
    requires p in SubdirsIn(children, dir, ignored)
    ensures i < |children| && children[i].Dir? && !ignored(dir + [children[i].name])
    ensures p in WalkDir(children[i].children, dir + [children[i].name], ignored)
    decreases |children|
  {
    var c := children[0];
    if c.Dir? && !ignored(dir + [c.name]) && p in WalkDir(c.children, dir + [c.name], ignored) {
      i := 0;
    } else {
      var j := SubdirsInMember(children[1..], dir, ignored, p);
      i := j + 1;
    }
  }

  lemma {:induction false} SubdirsInHas(children: seq<Node>, dir: seq<string>, ignored: seq<string> -> bool, i: nat, p: seq<string>)
    requires i < |children| && children[i].Dir? && !ignored(dir + [children[i].name])
    requires p in WalkDir(children[i].children, dir + [children[i].name], ignored)
    ensures p in SubdirsIn(children, dir, ignored)
    decreases |children|
  {
    if i > 0 {
      SubdirsInHas(children[1..], dir, ignored, i - 1, p);
    }
  }

  /** Everything the walk of `dir` yields lies strictly below `dir`. */
  lemma {:induction false} WalkBelow(children: seq<Node>, dir: seq<string>, ignored: seq<string> -> bool, p: seq<string>)
    requires p in WalkDir(children, dir, ignored)
    ensures |p| > |dir| && p[..|dir|] == dir
    decreases children
  {
    if p in FilesIn(children, dir, ignored) {
      var i := FilesInMember(children, dir, ignored, p);
    } else {
      var i := SubdirsInMember(children, dir, ignored, p);
      var d := dir + [children[i].name];
      WalkBelow(children[i].children, d, ignored, p);
      assert p[..|dir|] == p[..|d|][..|dir|];
    }
  }

  /** In a directory with distinct names, looking an entry's name up finds
      that entry. */
  lemma FindOwnName(children: seq<Node>, i: nat)
    requires WellFormed(children) && i < |children|
    ensures FindChild(children, children[i].name) == Some(i)
  {
    var r := FindChild(children, children[i].name);
    assert r.Some?;
    assert children[r.value].name == children[i].name;
  }

  /** Soundness: every yielded path is a Python file below the directory,
      not ignored, and reached only through directories that are not ignored
      (so nothing inside a pruned directory is ever yielded). */
  lemma {:induction false} WalkSound(children: seq<Node>, dir: seq<string>, ignored: seq<string> -> bool, p: seq<string>)
    requires WellFormed(children)
    requires p in WalkDir(children, dir, ignored)
    ensures Yields(children, dir, ignored, p)
    decreases children
  {
    if p in FilesIn(children, dir, ignored) {
      var i := FilesInMember(children, dir, ignored, p);
      FindOwnName(children, i);
      assert p[|dir|..] == [children[i].name];
      assert p[..|dir|] == dir;
      assert p[..|p|] == p;
    } else {
      var i := SubdirsInMember(children, dir, ignored, p);
      WalkSound(children[i].children, dir + [children[i].name], ignored, p);
      FindOwnName(children, i);
      SoundStep(children, dir, ignored, p, i);
    }
  }

  /** One level of the soundness argument: a path yielded by the walk of the
      `i`-th entry, a directory that is not ignored, is yielded here. */
  lemma SoundStep(children: seq<Node>, dir: seq<string>, ignored: seq<string> -> bool, p: seq<string>, i: nat)
    requires i < |children| && children[i].Dir?
    requires FindChild(children, children[i].name) == Some(i)
    requires !ignored(dir + [children[i].name])
    requires Yields(children[i].children, dir + [children[i].name], ignored, p)
    ensures Yields(children, dir, ignored, p)
  {
    var n := children[i].name;
    var d := dir + [n];
    var q := p[|dir|..];
    assert p[..|d|] == d;
    assert p[..|dir|] == p[..|d|][..|dir|];
    assert q[0] == p[..|d|][|dir|] == n;
    assert q[1..] == p[|d|..];
    assert LookupIn(children, q) == LookupIn(children[i].children, p[|d|..]);
  }

  /** Completeness: every Python file below the directory that is not
      ignored and is reached through directories that are not ignored is
      yielded. */
  lemma {:induction false} WalkComplete(children: seq<Node>, dir: seq<string>, ignored: seq<string> -> bool, p: seq<string>)
    requires Yields(children, dir, ignored, p)
    ensures p in WalkDir(children, dir, ignored)
    decreases children
  {
    var q := p[|dir|..];
    var i := FindChild(children, q[0]).value;
    var n := children[i].name;
    assert p == dir + q;
    assert p[..|dir| + 1] == dir + [n];
    if |q| == 1 {
      assert p == dir + [n];
      assert p[..|p|] == p;
      FilesInHas(children, dir, ignored, i);
    } else {
      var d := dir + [n];
      var ch := children[i].children;
      assert p[..|d|] == d;
      assert p[|d|..] == q[1..];
      forall k | |d| < k <= |p| ensures !ignored(p[..k]) {
      }
      assert Yields(ch, d, ignored, p);
      WalkComplete(ch, d, ignored, p);
      SubdirsInHas(children, dir, ignored, i, p);
    }
  }

  // ---------------------------------------------------------------------
  // No path is yielded twice

  lemma {:induction false} NoDupConcat<T>(a: seq<T>, b: seq<T>)
    requires NoDup(a) && NoDup(b)
    requires forall x :: x in a ==> x !in b
    ensures NoDup(a + b)
  {
    forall i, j | 0 <= i < j < |a + b| ensures (a + b)[i] != (a + b)[j] {
      if j >= |a| && i < |a| {
        assert (a + b)[i] in a;
        assert (a + b)[j] == b[j - |a|];
      } else if i >= |a| {
        assert (a + b)[i] == b[i - |a|] && (a + b)[j] == b[j - |a|];
      }
    }
  }

  lemma WellFormedTail(children: seq<Node>)
    requires |children| > 0 && WellFormed(children)
    ensures WellFormed(children[1..])
  {
    var t := children[1..];
    forall i, j | 0 <= i < j < |t| ensures t[i].name != t[j].name {
      assert t[i] == children[i + 1] && t[j] == children[j + 1];
    }
  }

  /** The files of a directory with distinct names are yielded once each. */
  lemma {:induction false} FilesInNoDup(children: seq<Node>, dir: seq<string>, ignored: seq<string> -> bool)
    requires WellFormed(children)
    ensures NoDup(FilesIn(children, dir, ignored))
    decreases |children|
  {
    if |children| > 0 {
      var c := children[0];
      var rest := FilesIn(children[1..], dir, ignored);
      WellFormedTail(children);
      FilesInNoDup(children[1..], dir, ignored);
      forall x | x in rest ensures x != dir + [c.name] {
        var j := FilesInMember(children[1..], dir, ignored, x);
        assert children[1..][j] == children[j + 1];
        assert x[|dir|] == children[j + 1].name;
      }
      var here := if c.File? && !ignored(dir + [c.name]) && EndsWith(c.name, PySuffix)
                  then [dir + [c.name]] else [];
      NoDupConcat(here, rest);
    }
  }

  /** The walk of a directory whose tree is well formed yields every path at
      most once. */
  lemma {:induction false} WalkNoDup(children: seq<Node>, dir: seq<string>, ignored: seq<string> -> bool)
    requires WellFormed(children)
    ensures NoDup(WalkDir(children, dir, ignored))
    decreases children, 1
  {
    var files := FilesIn(children, dir, ignored);
    var subs := SubdirsIn(children, dir, ignored);
    FilesInNoDup(children, dir, ignored);
    SubdirsNoDup(children, dir, ignored);
    forall x | x in files ensures x !in subs {
      var i := FilesInMember(children, dir, ignored, x);
      if x in subs {
        var j := SubdirsInMember(children, dir, ignored, x);
        WalkBelow(children[j].children, dir + [children[j].name], ignored, x);
      }
    }
    NoDupConcat(files, subs);
  }

  lemma {:induction false} SubdirsNoDup(children: seq<Node>, dir: seq<string>, ignored: seq<string> -> bool)
    requires WellFormed(children)
    ensures NoDup(SubdirsIn(children, dir, ignored))
    decreases children, 0
  {
    if |children| > 0 {
      var c := children[0];
      var rest := SubdirsIn(children[1..], dir, ignored);
      WellFormedTail(children);
      SubdirsNoDup(children[1..], dir, ignored);
      var below := match c
        case Dir(name, ch) => if ignored(dir + [name]) then [] else WalkDir(ch, dir + [name], ignored)
        case File(_, _) => [];
      if c.Dir? && !ignored(dir + [c.name]) {
        WalkNoDup(c.children, dir + [c.name], ignored);
        forall x | x in rest ensures |x| > |dir| && x[|dir|] != c.name {
          var j := SubdirsInFirst(children[1..], dir, ignored, x);
          assert children[1..][j] == children[j + 1];
        }
        forall x | x in below ensures |x| > |dir| && x[|dir|] == c.name {
          WalkFirst(c.children, dir, c.name, ignored, x);
        }
      }
      NoDupConcat(below, rest);
    }
  }

  /** A path yielded by the walk of `dir + [n]` continues `dir` with `n`. */
  lemma WalkFirst(children: seq<Node>, dir: seq<string>, n: string, ignored: seq<string> -> bool, x: seq<string>)
    requires x in WalkDir(children, dir + [n], ignored)
    ensures |x| > |dir| && x[|dir|] == n
  {
    WalkBelow(children, dir + [n], ignored, x);
    assert x[|dir|] == x[..|dir| + 1][|dir|];
  }

  /** A path yielded through the subdirectories of `dir` continues `dir`
      with the name of one of them. */
  lemma SubdirsInFirst(children: seq<Node>, dir: seq<string>, ignored: seq<string> -> bool, x: seq<string>) returns (j: nat)
    requires x in SubdirsIn(children, dir, ignored)
    ensures j < |children| && |x| > |dir| && x[|dir|] == children[j].name
  {
    j := SubdirsInMember(children, dir, ignored, x);
    WalkFirst(children[j].children, dir, children[j].name, ignored, x);
  }

  /** Walking from a path of valid names through a well-formed tree yields
      paths of valid names. */
  lemma {:induction false} WalkValid(children: seq<Node>, dir: seq<string>, ignored: seq<string> -> bool, p: seq<string>)
    requires WellFormed(children) && AllValid(dir)
    requires p in WalkDir(children, dir, ignored)
    ensures AllValid(p)
    decreases children
  {
    if p in FilesIn(children, dir, ignored) {
      var i := FilesInMember(children, dir, ignored, p);
      AllValidConcat(dir, [children[i].name]);
    } else {
      var i := SubdirsInMember(children, dir, ignored, p);
      AllValidConcat(dir, [children[i].name]);
      WalkValid(children[i].children, dir + [children[i].name], ignored, p);
    }
  }

  // ---------------------------------------------------------------------
  // The whole walk in terms of the filesystem

  /** Looking a path up below a directory continues inside it. */
  lemma {:induction false} LookupAppend(fs: Node, dir: seq<string>, q: seq<string>)
    requires Lookup(fs, dir).Some? && Lookup(fs, dir).value.Dir?
    requires |q| > 0
    ensures Lookup(fs, dir + q) == LookupIn(Lookup(fs, dir).value.children, q)
    decreases |dir|
  {
    if |dir| > 0 {
      var ch := fs.children;
      var i := FindChild(ch, dir[0]).value;
      assert (dir + q)[0] == dir[0];
      if |dir| == 1 {
        assert (dir + q)[1..] == q;
      } else {
        assert (dir + q)[1..] == dir[1..] + q;
        LookupAppend(ch[i], dir[1..], q);
      }
    } else {
      assert dir + q == q;
    }
  }

  /** Every directory found in a well-formed tree is well formed. */
  lemma {:induction false} LookupWellFormed(fs: Node, parts: seq<string>)
    requires fs.Dir? && WellFormed(fs.children)
    requires Lookup(fs, parts).Some? && Lookup(fs, parts).value.Dir?
    ensures WellFormed(Lookup(fs, parts).value.children)
    decreases |parts|
  {
    if |parts| > 0 {
      var i := FindChild(fs.children, parts[0]).value;
      if |parts| > 1 {
        LookupWellFormed(fs.children[i], parts[1..]);
      }
    }
  }

  /** A path that leads somewhere in a well-formed tree consists of valid
      names. */
  lemma {:induction false} LookupValid(fs: Node, parts: seq<string>)
    requires fs.Dir? && WellFormed(fs.children)
    requires Lookup(fs, parts).Some?
    ensures AllValid(parts)
    decreases |parts|
  {
    if |parts| > 0 {
      var i := FindChild(fs.children, parts[0]).value;
      if |parts| > 1 && fs.children[i].Dir? {
        LookupValid(fs.children[i], parts[1..]);
      }
      forall k | 0 <= k < |parts| ensures ValidName(parts[k]) {
        if k > 0 {
          assert parts[k] == parts[1..][k - 1];
        }
      }
    }
  }

  /** What `iter_python_files` yields, stated on the filesystem alone: a
      path is yielded exactly when the root is a directory, the path lies
      strictly below it and names a file ending in `.py`, and neither the
      path nor any directory between the root and it is ignored. */
  lemma PythonFilePathsMeaning(fs: Node, root: string, patterns: seq<string>, includeHidden: bool, cwd: AbsPath, p: seq<string>)
    requires fs.Dir? && WellFormed(fs.children)
    ensures var r := AbsPathOf(root, cwd).parts;
            var ignored := IgnoreTest(ScanOf(root, patterns, includeHidden, cwd));
            p in PythonFilePaths(fs, root, patterns, includeHidden, cwd) <==>
              && Lookup(fs, r).Some? && Lookup(fs, r).value.Dir?
              && |p| > |r| && p[..|r|] == r
              && Lookup(fs, p).Some? && Lookup(fs, p).value.File?
              && EndsWith(p[|p| - 1], PySuffix)
              && forall k :: |r| < k <= |p| ==> !ignored(p[..k])
  {
    var r := AbsPathOf(root, cwd).parts;
    var ignored := IgnoreTest(ScanOf(root, patterns, includeHidden, cwd));
    if Lookup(fs, r).Some? && Lookup(fs, r).value.Dir? {
      var ch := Lookup(fs, r).value.children;
      LookupWellFormed(fs, r);
      if |p| > |r| && p[..|r|] == r {
        assert p == r + p[|r|..];
        LookupAppend(fs, r, p[|r|..]);
      }
      if p in PythonFilePaths(fs, root, patterns, includeHidden, cwd) {
        WalkSound(ch, r, ignored, p);
      }
      if Yields(ch, r, ignored, p) {
        WalkComplete(ch, r, ignored, p);
      }
    }
  }

  /** Nothing inside an ignored directory below the root is ever yielded:
      the walk prunes it before descending. */
  lemma PrunedSubtreeNeverYielded(fs: Node, root: string, patterns: seq<string>, includeHidden: bool, cwd: AbsPath, d: seq<string>, p: seq<string>)
    requires fs.Dir? && WellFormed(fs.children)
    requires |d| > |AbsPathOf(root, cwd).parts|
    requires IgnoreTest(ScanOf(root, patterns, includeHidden, cwd))(d)
    requires |p| >= |d| && p[..|d|] == d
    ensures p !in PythonFilePaths(fs, root, patterns, includeHidden, cwd)
  {
    PythonFilePathsMeaning(fs, root, patterns, includeHidden, cwd, p);
  }

  /** `iter_python_files` never yields the same file twice. */
  lemma IterPythonFilesNoDup(fs: Node, root: string, patterns: seq<string>, includeHidden: bool, cwd: AbsPath)
    requires fs.Dir? && WellFormed(fs.children)
    ensures NoDup(IterPythonFiles(fs, root, patterns, includeHidden, cwd))
  {
    var ps := PythonFilePaths(fs, root, patterns, includeHidden, cwd);
    var r := AbsPathOf(root, cwd).parts;
    var ignored := IgnoreTest(ScanOf(root, patterns, includeHidden, cwd));
    var out := IterPythonFiles(fs, root, patterns, includeHidden, cwd);
    if Lookup(fs, r).Some? && Lookup(fs, r).value.Dir? {
      var ch := Lookup(fs, r).value.children;
      assert ps == WalkDir(ch, r, ignored);
      LookupWellFormed(fs, r);
      WalkNoDup(ch, r, ignored);
      forall i, j | 0 <= i < j < |out| ensures out[i] != out[j] {
        WalkValid(ch, r, ignored, ps[i]);
        WalkValid(ch, r, ignored, ps[j]);
        if out[i] == out[j] {
          RenderInjective(AbsPath(ps[i]), AbsPath(ps[j]));
        }
      }
    }
  }

  /** A yielded path is valid, names a `.py` file, and is not ignored. */
  lemma YieldedPathKept(fs: Node, root: string, patterns: seq<string>, includeHidden: bool, cwd: AbsPath, p: seq<string>)
    requires fs.Dir? && WellFormed(fs.children)
    requires p in PythonFilePaths(fs, root, patterns, includeHidden, cwd)
    ensures AllValid(p) && |p| > 0 && EndsWith(p[|p| - 1], PySuffix)
    ensures !IgnoreTest(ScanOf(root, patterns, includeHidden, cwd))(p)
  {
    PythonFilePathsMeaning(fs, root, patterns, includeHidden, cwd, p);
    LookupValid(fs, p);
    assert p[..|p|] == p;
  }

  /** A path the walk's test keeps is kept by `should_ignore` with the root
      as given. */
  lemma KeptByWalkTest(root: string, patterns: seq<string>, includeHidden: bool, cwd: AbsPath, p: seq<string>)
    requires !IgnoreTest(ScanOf(root, patterns, includeHidden, cwd))(p)
    ensures !ShouldIgnore(Render(AbsPath(p)), patterns, root, includeHidden, cwd)
  {
    AbsoluteRootSameVerdict(Render(AbsPath(p)), patterns, root, includeHidden, cwd);
  }

  /** Every text `iter_python_files` yields names a `.py` file and is not
      ignored by `should_ignore` with the walk's own settings. */
  lemma IterPythonFilesSound(fs: Node, root: string, patterns: seq<string>, includeHidden: bool, cwd: AbsPath, t: string)
    requires fs.Dir? && WellFormed(fs.children)
    requires t in IterPythonFiles(fs, root, patterns, includeHidden, cwd)
    ensures !ShouldIgnore(t, patterns, root, includeHidden, cwd)
    ensures EndsWith(Basename(t), PySuffix)
  {
    var ps := PythonFilePaths(fs, root, patterns, includeHidden, cwd);
    var out := IterPythonFiles(fs, root, patterns, includeHidden, cwd);
    var i :| 0 <= i < |out| && out[i] == t;
    var p := ps[i];
    YieldedPathKept(fs, root, patterns, includeHidden, cwd, p);
    assert t == Render(AbsPath(p));
    KeptByWalkTest(root, patterns, includeHidden, cwd, p);
    BasenameRender(AbsPath(p));
  }
}

=== FILE: wrappers.dfy ===
/** The optional value used wherever the program either produces something
    or falls back (an unreadable file, a relative path that cannot be
    computed, a name that is not in a directory). */
module Wrappers {

  datatype Option<+T> = None | Some(value: T)
}
